=== FILE: README.md ===
# ExcelToVcard in Dafny

A model of the two pipelines of ExcelToVcard, a small Windows tool for printing
contact cards as QR codes. The model keeps only their logic.

- **Export.** Every sheet of an Excel workbook becomes a text file of vCard 3.0
  templates, one per row whose `NAME` cell is not empty. Every cell first goes
  through the field sanitisers `FixChars`, `FixUrl` and `CheckPhone`.
- **Identify.** Every `.jpg` image of a folder is visited in ascending name
  order. Its QR code is decoded and the vCard it holds is parsed. The image is
  copied, under a name taken from the card, into the `identified vCards`
  subfolder. Images without a readable code are listed in `failed files.txt`.
- **Pixel height.** The height at which images are decoded comes from the
  `QrCodeImagePixelHeight` setting, with 6000 as the fallback.

Modules:

- `Results` (`results.dfy`): `Option` and `Result`, with `:-` propagation. A
  `Failure` stands for an exception the button handler catches.
- `Text` (`text.dfy`): the ordinal .NET string operations the program relies
  on: `Replace` (one left-to-right pass over non-overlapping occurrences),
  `Trim`, `Split`, `Join`, `IndexOf`, `Contains`, `ToLower` and `Reverse`.
- `FileSystem` (`filesystem.dfy`): the parts of `Path.Combine`,
  `Path.GetExtension`, `Path.ChangeExtension` and
  `Path.GetFileNameWithoutExtension` that the program uses. It also has the
  text that `File.WriteAllLines`/`AppendAllLines` write (every line ended by
  CR LF).
- `Sanitize` (`sanitize.dfy`): `FixChars`, `FixUrl` and `CheckPhone`.
- `Settings` (`settings.dfy`): `int.TryParse` with the default integer style,
  and the pixel-height fallback.
- `Ordinal` (`ordinal.dfy`): the `OrderBy(_ => _)` of the image scan, as an
  insertion sort under ordinal order.
- `Export` (`export.dfy`):
  - the row filter and card template;
  - the output path and file content;
  - the loop over sheets. Its state is the files written (a map from path to
    content) and the error that stopped it.
- `Identify` (`identify.dfy`):
  - the classification of one image (unreadable, copied, or aborting);
  - the two naming modes;
  - the fold over the sorted listing. The destination folder is a map from
    destination to source, so the last copy to a path wins.

The image decoder and the vCard parser are function-valued fields of a
`Scanner` datatype. The workbook reader is replaced by its result, a sequence of
named tables of rows, where a row maps column names to cell text.

Two details of the sanitisers and the settings shape the model:

- `FixChars` replaces real line feeds; a two-character `\n` escape in a cell is
  kept.
- `FixUrl` deletes every occurrence of `http://` and then every occurrence of
  `https://`, wherever they stand, in one pass each that does not rescan its
  output.
- The pixel height may be zero or negative: the code takes whatever number
  `int.TryParse` yields.

## Model

| member | source | states |
|---|---|---|
| Sanitize.FixChars | ExcelToVcard/StringExtensions.cs:7-12 | the sanitised value contains no comma and no line feed, has no white space at either end, and is no longer than the original |
| Sanitize.FixCharsIdempotent | ExcelToVcard/StringExtensions.cs:7-12 | sanitising a sanitised value changes nothing |
| Sanitize.FixCharsOfWhiteSpace | ExcelToVcard/StringExtensions.cs:7-12 | a value of white space alone (no comma, no line feed) sanitises to the empty string |
| Sanitize.FixCharsJoinsLineBreak | ExcelToVcard/StringExtensions.cs:9-12 | a CR LF between two clean words becomes exactly one space, because the CR LF replacement runs before the line-feed one |
| Sanitize.LineBreakBecomesSpace | ExcelToVcard/StringExtensions.cs:10 | the CR LF pass over `a + CR LF + b` yields `a + " " + b` when `a` and `b` hold no carriage return |
| Sanitize.FixCharsKeepsLoneCarriageReturn | ExcelToVcard/StringExtensions.cs:9-12 | a lone carriage return survives: `a\rb` is unchanged |
| Sanitize.DropTrailingSlash | ExcelToVcard/StringExtensions.cs:16-17 | exactly one trailing `/` is removed when present, and nothing otherwise |
| Sanitize.FixUrl | ExcelToVcard/StringExtensions.cs:14-22 | the result is never longer than the input and uses only its characters; a value without `:` only loses one trailing `/` |
| Sanitize.FixUrlDeletesHttpAnywhere | ExcelToVcard/StringExtensions.cs:19-21 | `u + "http://" + v` becomes `u + v` wherever the scheme stands, when no other `:` occurs and `v` does not end in `/` |
| Sanitize.FixUrlDeletesHttpsAnywhere | ExcelToVcard/StringExtensions.cs:16-21 | `u + "https://" + v + "/"` becomes `u + v` |
| Sanitize.FixUrlDropsOneSlash | ExcelToVcard/StringExtensions.cs:16-17 | `a//` becomes `a/`: only one trailing slash goes |
| Sanitize.FixUrlHttpExample | ExcelToVcard/StringExtensions.cs:19-21 | `x http://y` becomes `x y` |
| Sanitize.FixUrlHttpsExample | ExcelToVcard/StringExtensions.cs:16-21 | `https://example.com/` becomes `example.com` |
| Sanitize.FixUrlSlashBeforeScheme | ExcelToVcard/StringExtensions.cs:16-21 | the slash goes before schemes are looked for, so `http://` becomes `http:/` |
| Sanitize.HttpPassOnce | ExcelToVcard/StringExtensions.cs:20 | the `http://` pass over `hthttp://tp://x` deletes only the occurrence at index 2 |
| Sanitize.FixUrlDoesNotRescan | ExcelToVcard/StringExtensions.cs:19-21 | a deletion can bring a new scheme together, which stays: `hthttp://tp://x` becomes `http://x` |
| Sanitize.CheckPhone | ExcelToVcard/StringExtensions.cs:24-30 | the result starts with `+` and ends with the input; it equals the input exactly when the input starts with `+`, and is otherwise one character longer |
| Sanitize.CheckPhoneIdempotent | ExcelToVcard/StringExtensions.cs:24-30 | checking a checked number changes nothing, and the empty number becomes `+` |
| Text.Replace | ExcelToVcard/StringExtensions.cs:9-11 | the result uses only characters of the input or the replacement; a shorter replacement never lengthens; a one-character pattern absent from the replacement is gone; without an occurrence the input is returned |
| Text.ReplaceAtFirst | ExcelToVcard/StringExtensions.cs:20-21 | up to its first occurrence of the pattern, `Replace` copies the input, then puts the replacement and carries on after the occurrence |
| Text.ReplaceAround | ExcelToVcard/StringExtensions.cs:20-21 | `Replace` over `u + pat + v`, with no earlier occurrence, is `u + rep` followed by `Replace` over `v` |
| Text.ReplaceIsJoinOfSplit | ExcelToVcard/StringExtensions.cs:9-11 | `Replace` equals splitting at the pattern and joining with the replacement |
| Text.IndexOf | ExcelToVcard/MainWindow.xaml.cs:168 | finds the first occurrence, and nothing exactly when the pattern does not occur |
| Text.TrimWith | ExcelToVcard/StringExtensions.cs:12 | the result is a contiguous piece of the input, everything cut off is a trimmed character, and neither end of the result is one |
| Text.Trim | ExcelToVcard/StringExtensions.cs:12 | the same, for the white space of `Char.IsWhiteSpace` |
| Text.TrimUnique | ExcelToVcard/StringExtensions.cs:12 | there is only one trim of a string |
| Text.TrimIdempotent | ExcelToVcard/StringExtensions.cs:12 | trimming twice is trimming once |
| Text.Split | ExcelToVcard/MainWindow.xaml.cs:168 | a split has at least one piece and no piece contains the separator |
| Text.SplitJoin | ExcelToVcard/MainWindow.xaml.cs:168 | joining the pieces of a split with the separator gives back the string |
| Text.JoinSplit | ExcelToVcard/MainWindow.xaml.cs:168 | splitting a join of separator-free pieces at an unbordered separator gives back the pieces |
| Text.ToLower | ExcelToVcard/MainWindow.xaml.cs:96 | same length, every character lower-cased |
| Text.Reverse | ExcelToVcard/MainWindow.xaml.cs:168 | same length, element `i` is element `n-1-i` of the input |
| FileSystem.Combine | ExcelToVcard/MainWindow.xaml.cs:94-96 | an empty part leaves the other; a rooted second part replaces the first; otherwise the result starts with the first and ends with the second, is at most one character longer than the two together and never shorter, and a separator stands where they meet: as the last character of the first part or right after it |
| FileSystem.ExtensionDot | ExcelToVcard/MainWindow.xaml.cs:164-170 | finds the last dot with no separator after it, and nothing when every dot has a separator after it |
| FileSystem.GetExtension | ExcelToVcard/MainWindow.xaml.cs:170 | the extension is empty or a dot, at least one character free of dots and separators, ending the path; it is non-empty exactly when some dot before the last character has no dot or separator after it |
| FileSystem.ChangeExtensionCutsAtLastDot | ExcelToVcard/MainWindow.xaml.cs:164-170 | everything from the last dot of the final segment is replaced: `a.b` with `.jpg` becomes `a.jpg` |
| FileSystem.ChangeExtensionToOwn | ExcelToVcard/MainWindow.xaml.cs:164-170 | giving a path back its own extension leaves it unchanged |
| FileSystem.ExtensionOfChanged | ExcelToVcard/MainWindow.xaml.cs:164-170 | after a change to the extension `.x`, the path reports `.x` |
| FileSystem.StripExtension | ExcelToVcard/MainWindow.xaml.cs:96 | a name without a dot is kept; otherwise the result is the name before its last dot |
| FileSystem.LinesSplit | ExcelToVcard/MainWindow.xaml.cs:99 | text written line by line, read back at its line feeds, gives each line once, in order, with its carriage return, then one empty piece |
| Settings.ParseInt32 | ExcelToVcard/MainWindow.xaml.cs:33 | a parsed value lies in the 32-bit range |
| Settings.DecimalRoundTrip | ExcelToVcard/MainWindow.xaml.cs:33 | the decimal form of every 32-bit integer parses back to that integer |
| Settings.NoDigitNoNumber | ExcelToVcard/MainWindow.xaml.cs:33 | a setting without a digit does not parse |
| Settings.PixelHeightKeepsAnyInt32 | ExcelToVcard/MainWindow.xaml.cs:32-35 | the pixel height is whatever 32-bit number the setting holds, zero and negative numbers included |
| Settings.PixelHeightFallsBack | ExcelToVcard/MainWindow.xaml.cs:25-35 | a missing setting, one without digits and one beyond 32 bits all give 6000 |
| Ordinal.BelowTotal | ExcelToVcard/MainWindow.xaml.cs:145 | any two names are ordered one way or the other |
| Ordinal.BelowTransitive | ExcelToVcard/MainWindow.xaml.cs:145 | ordinal order is transitive |
| Ordinal.BelowAntisymmetric | ExcelToVcard/MainWindow.xaml.cs:145 | names ordered both ways are equal |
| Ordinal.Insert | ExcelToVcard/MainWindow.xaml.cs:145 | inserting into a sorted listing gives a sorted listing with exactly one more element |
| Ordinal.Sort | ExcelToVcard/MainWindow.xaml.cs:145 | the result is sorted and a permutation of the listing |
| Ordinal.SortedUnique | ExcelToVcard/MainWindow.xaml.cs:145 | two sorted arrangements of the same names are identical |
| Ordinal.SortIgnoresListingOrder | ExcelToVcard/MainWindow.xaml.cs:145 | the order of visits does not depend on the order the directory listing returned |
| Ordinal.SortExample | ExcelToVcard/MainWindow.xaml.cs:145 | `b.jpg`, `a.jpg`, `c.jpg` are visited as `a.jpg`, `b.jpg`, `c.jpg` |
| Export.Cell | ExcelToVcard/MainWindow.xaml.cs:90-91 | reading a cell fails exactly when the sheet lacks the column, with that column's error |
| Export.Cells | ExcelToVcard/MainWindow.xaml.cs:91 | the cells are read in order and are the row's values; a failure names the first missing column |
| Export.Sanitized | ExcelToVcard/MainWindow.xaml.cs:91 | every value of a card is free of commas and line feeds, and its phone starts with `+` |
| Export.ReadContact | ExcelToVcard/MainWindow.xaml.cs:91 | a contact is read exactly when the row has every template column; a failure names the first missing one in template order |
| Export.RowCard | ExcelToVcard/MainWindow.xaml.cs:90-91 | a row yields a card, is dropped (exactly when its raw `NAME` is empty) or fails; a sheet without `NAME` fails on `NAME` |
| Export.RowsCards | ExcelToVcard/MainWindow.xaml.cs:87-92 | the sheet's cards are read exactly when every row is skipped or complete, there are no more cards than rows, and a failure is a missing column of this sheet |
| Export.Kept | ExcelToVcard/MainWindow.xaml.cs:90 | the reference filter holds exactly the rows whose raw `NAME` is not empty |
| Export.CardsOf | ExcelToVcard/MainWindow.xaml.cs:91 | one card per row, none holding a line feed |
| Export.RowsCardsAreKeptRows | ExcelToVcard/MainWindow.xaml.cs:87-92 | when every row can be read, the cards are exactly those of the kept rows, one per row, in row order |
| Export.RowsCardsFailsAtFirstBadRow | ExcelToVcard/MainWindow.xaml.cs:87-92 | a failing sheet fails with the error of its first row that is neither skipped nor complete |
| Export.KeptRowCard | ExcelToVcard/MainWindow.xaml.cs:90-91 | a complete row with a non-empty `NAME` becomes the card of its contact |
| Export.BlankNameKept | ExcelToVcard/MainWindow.xaml.cs:90-91 | a `NAME` of one space is kept, since the filter tests the raw value, yet the card's name is empty |
| Export.EmptyPhoneLine | ExcelToVcard/MainWindow.xaml.cs:91 | an empty phone cell gives the card line `TEL;CELL:+` |
| Export.CardOnOneLine | ExcelToVcard/MainWindow.xaml.cs:91 | a card from clean values has no real line feed, so it takes one line of the file read at its line feeds |
| Export.CardWithoutLineBreaks | ExcelToVcard/MainWindow.xaml.cs:91 | a card from clean values without carriage returns has neither a line feed nor a carriage return, so it takes one line for a reader that also breaks at a lone carriage return |
| Export.CardFrame | ExcelToVcard/MainWindow.xaml.cs:91 | a card starts with `BEGIN:VCARD\nVERSION:3.0\n` and ends with `\nEND:VCARD`, where `\n` is the two-character escape |
| Export.CardReadsBack | ExcelToVcard/MainWindow.xaml.cs:91 | cut at its `\n` escapes, a card without backslashes in its values gives back its eleven lines in template order |
| Export.ContentReadsBack | ExcelToVcard/MainWindow.xaml.cs:98-99 | a file read back at its line feeds is the `#QRCodes` header, then each card once, in order |
| Export.SheetPathShape | ExcelToVcard/MainWindow.xaml.cs:94-96 | a sheet's file path starts with the workbook's directory and ends with the workbook name without its extension, `_`, the lower-cased sheet name and `.txt` |
| Export.SheetFileLines | ExcelToVcard/MainWindow.xaml.cs:87-99 | a sheet's file has the header and then one line per kept row |
| Export.ExportSheets | ExcelToVcard/MainWindow.xaml.cs:85-100 | the loop ends without error exactly when every sheet's cards are read and, unless there are no sheets, the workbook has a directory; without a directory nothing is written |
| Export.ExportErrorOrigin | ExcelToVcard/MainWindow.xaml.cs:85-100 | the error of an export is `Directory not found` or the error of one of its sheets |
| Export.ExportedPaths | ExcelToVcard/MainWindow.xaml.cs:94-99 | only sheet files are written, and a finished export writes the file of every sheet |
| Export.ExportWorkbook | ExcelToVcard/MainWindow.xaml.cs:81-100 | no sheets is an error exactly when the workbook has none, and nothing is written then; the export ends without error exactly when there are sheets, a directory, and every sheet can be read |
| Export.LastSheetWins | ExcelToVcard/MainWindow.xaml.cs:94-99 | after a finished export a sheet's file holds its content unless a later sheet maps to the same path |
| Export.ExportStopsAtFirstFailure | ExcelToVcard/MainWindow.xaml.cs:85-100 | the export stops at the first sheet that cannot be read, with that sheet's error, and keeps the files of the sheets before it |
| Export.ExportWithoutDirectory | ExcelToVcard/MainWindow.xaml.cs:94-95 | without a directory nothing is written, and a first sheet that can be read raises `Directory not found` |
| Export.SheetsDifferingInCaseShareFile | ExcelToVcard/MainWindow.xaml.cs:96-99 | two sheets whose names differ only in letter case share one file, holding the later sheet's cards |
| Identify.Matching | ExcelToVcard/MainWindow.xaml.cs:168-169 | the wanted fields of the card, each exactly as often as the card has it, and no other field |
| Identify.MatchingMembers | ExcelToVcard/MainWindow.xaml.cs:168-169 | a field is among the matches exactly when the card has it and the naming mode looks for it |
| Identify.Classify | ExcelToVcard/MainWindow.xaml.cs:147-172 | an image is unreadable exactly when nothing is decoded; it is copied exactly when the text parses to one card with one wanted field, from its path to the destination that field's value names; otherwise the scan aborts with `NotOneCard` and the number of cards, or, for one card, with `NotOneField` and the number of wanted fields |
| Identify.FirstAbort | ExcelToVcard/MainWindow.xaml.cs:161-169 | no image before the first abort aborts, and the image there does |
| Identify.FailedOfMembers | ExcelToVcard/MainWindow.xaml.cs:155-158 | the unreadable list holds exactly the images nothing was decoded from |
| Identify.CopiesOf | ExcelToVcard/MainWindow.xaml.cs:163-172 | the copies are exactly those of the identified images |
| Identify.Applied | ExcelToVcard/MainWindow.xaml.cs:172 | the destination folder holds exactly the destinations of the copies |
| Identify.ReportPath | ExcelToVcard/MainWindow.xaml.cs:126 | the report's path starts with the destination folder and ends with `failed files.txt` |
| Identify.Report | ExcelToVcard/MainWindow.xaml.cs:125-126 | the report is written exactly when the scan finished with some unreadable image |
| Identify.ReversedNameReversesParts | ExcelToVcard/MainWindow.xaml.cs:168 | the reversed name is the `;`-separated parts of the trimmed value in reverse, joined by `_`, with the `_vCard` suffix |
| Identify.ReversedNameSwapsNames | ExcelToVcard/MainWindow.xaml.cs:168 | `surname;given` becomes `given_surname_vCard` |
| Identify.ReversedNameExample | ExcelToVcard/MainWindow.xaml.cs:168 | `Doe;Jane` becomes `Jane_Doe_vCard` |
| Identify.FullNameCutsAtLastDot | ExcelToVcard/MainWindow.xaml.cs:164-170 | a full name `a.b` names the copy `a` plus the image's extension |
| Identify.FullNameInDestinationDirectory | ExcelToVcard/MainWindow.xaml.cs:163-172 | a full name `a.b` scanned from `stem.ext`, below a root that does not end in a separator, is copied to `root\identified vCards\a.ext` |
| Identify.FullNameExample | ExcelToVcard/MainWindow.xaml.cs:163-170 | `A. Smith` scanned from `C:\scans\x.jpg` is copied to `C:\scans\identified vCards\A.jpg` |
| Identify.LastCopyWins | ExcelToVcard/MainWindow.xaml.cs:172 | a destination keeps the source of the last copy made to it |
| Identify.EveryImageAccounted | ExcelToVcard/MainWindow.xaml.cs:145-173 | when nothing aborts, the unreadable images and the copies together number exactly the images |
| Identify.FailedInOrder | ExcelToVcard/MainWindow.xaml.cs:145-157 | unreadable images are listed in visiting order, so the list is sorted |
| Identify.ReportReadsBack | ExcelToVcard/MainWindow.xaml.cs:126 | the report read back line by line lists each unreadable image once, in order |
| Identify.ScanImages | ExcelToVcard/MainWindow.xaml.cs:142-175 | the loop stops at the first abort, having collected the unreadable images and the copies before it, with the destination folder they leave |
| Identify.Scan | ExcelToVcard/MainWindow.xaml.cs:124-176 | the fold plus the report: the error is the first aborting image's, and the report follows the unreadable list only for a finished scan |
| Identify.IdentifyImages | ExcelToVcard/MainWindow.xaml.cs:140-176 | the whole scan over the listing sorted in ordinal order, each image classified with the configured pixel height |

## Left out

- User interface: dialogs, message boxes, cursor and progress bar. They hold no logic.
- `async`/`Task.Run`: scheduling only, and the work is sequential.
- ExcelDataReader: a workbook is given as its sheets, each a name and data rows keyed by header. The code-page 1252 fallback and header reading are not modelled.
- ZXing, `BitmapImage` and the vCardLib `Deserializer`: they are the `decode` and `parse` functions of a `Scanner`. Decoding failures other than "no code found" are not modelled.
- File-system effects (`File.Open`, `WriteAllText`, `AppendAllLines`, `WriteAllLines`, `File.Copy`, `Directory.CreateDirectory`): modelled as returned content and as maps from path to content or source. Failures of the file system itself are not modelled.
- Identify.Applied: starts from an empty folder, so files already in `identified vCards` before the scan are not part of the map.
- Identify.Applied: destinations are compared as exact strings, with no case folding and no resolution of `.` or `..`. Windows compares file names case-insensitively, so `Smith.jpg` and `SMITH.jpg` are one file on disk but two keys here.
- Identify.LastCopyWins: the same holds for its hypothesis: two destinations that differ only in letter case count as different paths, although the later copy would overwrite the earlier one on disk.
- Export.LastSheetWins: output paths are compared as exact strings. Sheet names are lower-cased before they reach the path; the directory and the workbook name are not case-folded or normalised.
- Text encodings (`Encoding.Unicode`, the UTF-8 default of `WriteAllLines`): output is characters, not bytes.
- Text.IsWhiteSpace: the .NET white-space set is written out as a concrete list of code points.
- Text.ToLower: lower-cases ASCII letters only. The culture-sensitive casing of other letters is not modelled.
- Ordinal.Sort: `OrderBy` uses the culture-aware default comparer; the model uses ordinal order.
- Sanitize.CheckPhone: `StartsWith(string)` is culture-sensitive in .NET; it is modelled as ordinal.
- Sanitize.FixUrl: `EndsWith(string)` is culture-sensitive in .NET; it is modelled as ordinal.
- Export.Cell: the `DataRow` indexer matches column names case-insensitively; the model matches them exactly.
- Export.Cells: every cell is given as its `ToString()` text, so a null cell is the empty string; formatting of numbers and dates is not modelled.
- Export.ExportWorkbook: the workbook's directory is an input (`None` when `Path.GetDirectoryName` gives null); parsing of the workbook path is not modelled.
- FileSystem.Combine: characters that .NET rejects in paths, and UNC and device paths, are not modelled.
- Settings.ParseInt32: the culture's sign symbols are fixed to `+` and `-`; the trailing NUL characters that .NET also ignores are not modelled.
- Identify.IdentifyImages: the listing is taken as the files the `*.jpg` pattern matched; the pattern's own matching rules are not modelled. A negative pixel height, which `BitmapImage` would reject, is passed to `decode` like any other.

=== FILE: export.dfy ===
/** The export of `BtnOpenFile_Click`: every sheet of the chosen workbook
    becomes a text file of vCard templates, one card per row whose `NAME`
    cell is not empty, for a QR-code generator to read. */
module Export {
  import opened Results
  import opened Text
  import opened FileSystem
  import opened Sanitize

  /** A data row of a sheet, read with its header row: column name to the
      text of the cell. A column the sheet lacks has no entry. */
  type Row = map<string, string>

  /** A sheet: its table name and its data rows in order. */
  datatype Table = Table(name: string, rows: seq<Row>)

  /** The workbook the user picked: the folder it sits in (`None` when that
      folder cannot be named), its file name, and its sheets in order. */
  datatype Workbook = Workbook(directory: Option<string>, fileName: string, tables: seq<Table>)

  /** The exceptions that end an export. */
  datatype ExportError =
    | NoSheets
    | MissingColumn(table: string, column: string)
    | DirectoryNotFound

  /** What an export leaves behind: the text files it wrote (path to
      content, a later write to the same path replacing an earlier one) and
      the error that stopped it, if any. Files written before the error stay. */
  datatype ExportRun = ExportRun(disk: map<string, string>, error: Option<ExportError>)

  /** The columns the card template reads, in the order it reads them. */
  const CardColumns: seq<string> :=
    ["SURNAME", "NAME", "COMPANY", "JOB TITLE", "PHONE NUMBER", "STREET",
     "City", "POSTCODE", "COUNTRY", "WWW", "E-MAIL"]

  /** What the template writes between the lines of a card: a backslash and
      an `n` (the template is a verbatim string, so this is not a line feed). */
  const CardBreak: string := "\\n"

  /** The first line of every exported file, ended by a real line feed. */
  const Header: string := "#QRCodes\n"

  /** The sanitised values of one contact, as they appear on its card. */
  datatype Contact = Contact(
    surname: string, name: string, company: string, jobTitle: string,
    phone: string, street: string, city: string, postcode: string,
    country: string, url: string, email: string)

  /** A value that can stand between the commas and line breaks of a card. */
  predicate Clean(s: string)
  {
    ',' !in s && '\n' !in s
  }

  predicate CleanContact(c: Contact)
  {
    Clean(c.surname) && Clean(c.name) && Clean(c.company) && Clean(c.jobTitle)
    && Clean(c.phone) && Clean(c.street) && Clean(c.city) && Clean(c.postcode)
    && Clean(c.country) && Clean(c.url) && Clean(c.email)
  }

  /** The row has every column the card template reads. */
  predicate Complete(row: Row)
  {
    forall k | 0 <= k < |CardColumns| :: CardColumns[k] in row
  }

  /** `row[column]`: the cell, or the error the data row raises for a column
      its sheet lacks. */
  function Cell(table: string, row: Row, column: string): (r: Result<string, ExportError>)
    ensures r.Success? <==> column in row
    ensures r.Failure? ==> r.error == MissingColumn(table, column)
  {
    if column in row then Success(row[column]) else Failure(MissingColumn(table, column))
  }

  /** The cells of `columns`, read in order; the first column the sheet lacks
      stops the reading with its error. */
  function Cells(table: string, row: Row, columns: seq<string>): (r: Result<seq<string>, ExportError>)
    ensures r.Success? <==> forall k | 0 <= k < |columns| :: columns[k] in row
    ensures r.Success? ==>
      |r.value| == |columns| && forall k | 0 <= k < |columns| :: r.value[k] == row[columns[k]]
    ensures r.Failure? ==> exists k | 0 <= k < |columns| ::
      r.error == MissingColumn(table, columns[k]) && columns[k] !in row
      && forall j | 0 <= j < k :: columns[j] in row
    decreases |columns|
  {
    if |columns| == 0 then Success([])
    else
      var first :- Cell(table, row, columns[0]);
      var rest := Cells(table, row, columns[1..]);
      assert forall k | 1 <= k < |columns| :: columns[1..][k - 1] == columns[k];
      match rest
      case Failure(e) =>
        assert exists k | 1 <= k < |columns| :: e == MissingColumn(table, columns[k])
          && columns[k] !in row && forall j | 0 <= j < k :: columns[j] in row by {
          var k :| 0 <= k < |columns[1..]| && e == MissingColumn(table, columns[1..][k])
            && columns[1..][k] !in row && forall j | 0 <= j < k :: columns[1..][j] in row;
          assert columns[k + 1] == columns[1..][k];
          assert forall j | 1 <= j < k + 1 :: columns[j] == columns[1..][j - 1];
        }
        Failure(e)
      case Success(values) => Success([first] + values)
  }

  /** The contact whose raw cells, in template order, are `v`, sanitised as
      the template does it: `FixChars` on every cell, then `CheckPhone` on the
      phone number and `FixUrl` on the web address. */
  function Sanitized(v: seq<string>): (c: Contact)
    requires |v| == |CardColumns|
    ensures CleanContact(c) && |c.phone| > 0 && c.phone[0] == '+'
  {
    var phone := CheckPhone(FixChars(v[4]));
    Contact(
      FixChars(v[0]), FixChars(v[1]), FixChars(v[2]), FixChars(v[3]),
      phone, FixChars(v[5]), FixChars(v[6]), FixChars(v[7]),
      FixChars(v[8]), FixUrl(FixChars(v[9])), FixChars(v[10]))
  }

  /** The contact of one row. Fails on the first column, in template order,
      that the sheet lacks. */
  function ReadContact(table: string, row: Row): (r: Result<Contact, ExportError>)
    ensures r.Success? <==> Complete(row)
    ensures r.Success? ==> CleanContact(r.value) && |r.value.phone| > 0 && r.value.phone[0] == '+'
    ensures r.Failure? ==> exists k | 0 <= k < |CardColumns| ::
      r.error == MissingColumn(table, CardColumns[k]) && CardColumns[k] !in row
      && forall j | 0 <= j < k :: CardColumns[j] in row
  {
    var v :- Cells(table, row, CardColumns);
    Success(Sanitized(v))
  }

  /** The eleven lines of the card template, filled in. */
  function CardLines(c: Contact): (r: seq<string>)
  {
    [ "BEGIN:VCARD",
      "VERSION:3.0",
      "N;CHARSET=UTF-8:" + c.surname + ";" + c.name,
      "FN;CHARSET=UTF-8:" + c.name + " " + c.surname,
      "ORG:" + c.company,
      "TITLE:" + c.jobTitle,
      "TEL;CELL:" + c.phone,
      "ADR;WORK:;;" + c.street + ";" + c.city + ";" + c.postcode + ";" + c.country,
      "URL:" + c.url,
      "EMAIL;WORK;INTERNET:" + c.email,
      "END:VCARD" ]
  }

  /** The card text for one contact: its lines joined by `\n` escapes. */
  function Card(c: Contact): string
  {
    Join(CardBreak, CardLines(c))
  }

  /** The rows the `NAME` filter drops: those whose raw `NAME` cell is empty. */
  predicate Skipped(row: Row)
  {
    "NAME" in row && row["NAME"] == ""
  }

  /** A row the export can get through: skipped, or complete. */
  predicate Acceptable(row: Row)
  {
    Skipped(row) || Complete(row)
  }

  /** One row through the `Where` and `Select` of the export: the `NAME`
      cell is read first (a sheet without it fails), an empty one drops the
      row, and otherwise the row becomes a card. */
  function RowCard(table: string, row: Row): (r: Result<Option<string>, ExportError>)
    ensures r.Success? <==> Acceptable(row)
    ensures r.Success? ==> (r.value.None? <==> Skipped(row))
    ensures r.Failure? ==>
      r.error.MissingColumn? && r.error.table == table && r.error.column !in row
      && ("NAME" !in row ==> r.error.column == "NAME")
  {
    assert CardColumns[1] == "NAME";
    var name :- Cell(table, row, "NAME");
    if name == "" then Success(None)
    else
      var contact :- ReadContact(table, row);
      Success(Some(Card(contact)))
  }

  /** The cards of a sheet, in row order; the first row that fails stops the
      sheet. */
  function RowsCards(table: string, rows: seq<Row>): (r: Result<seq<string>, ExportError>)
    ensures r.Success? <==> forall k | 0 <= k < |rows| :: Acceptable(rows[k])
    ensures r.Success? ==> |r.value| <= |rows|
    ensures r.Failure? ==> r.error.MissingColumn? && r.error.table == table
    decreases |rows|
  {
    if |rows| == 0 then Success([])
    else
      var card :- RowCard(table, rows[0]);
      var rest :- RowsCards(table, rows[1..]);
      assert forall k | 1 <= k < |rows| :: rows[1..][k - 1] == rows[k];
      match card
      case None => Success(rest)
      case Some(text) => Success([text] + rest)
  }

  function TableCards(t: Table): Result<seq<string>, ExportError>
  {
    RowsCards(t.name, t.rows)
  }

  /** The reference filter: the rows whose raw `NAME` cell is not empty, in
      order. */
  function Kept(rows: seq<Row>): (r: seq<Row>)
    ensures forall x | x in r :: x in rows && !Skipped(x)
    ensures forall x | x in rows && !Skipped(x) :: x in r
  {
    if |rows| == 0 then []
    else (if Skipped(rows[0]) then [] else [rows[0]]) + Kept(rows[1..])
  }

  /** The card of every row of a sequence of complete rows. */
  function CardsOf(table: string, rows: seq<Row>): (r: seq<string>)
    requires forall x | x in rows :: Complete(x)
    ensures |r| == |rows|
    ensures forall k | 0 <= k < |r| :: '\n' !in r[k]
  {
    if |rows| == 0 then []
    else
      var contact := ReadContact(table, rows[0]).value;
      var card := Card(contact);
      var rest := CardsOf(table, rows[1..]);
      CardOnOneLine(contact);
      OneLineEach(card, rest);
      [card] + rest
  }

  /** Prepending a line without a line feed to lines without one. */
  lemma {:induction false} OneLineEach(line: string, lines: seq<string>)
    requires '\n' !in line
    requires forall k | 0 <= k < |lines| :: '\n' !in lines[k]
    ensures forall k | 0 <= k < |[line] + lines| :: '\n' !in ([line] + lines)[k]
  {
  }

  /** When every row can be read, the rows the filter keeps are complete. */
  lemma {:induction false} KeptComplete(rows: seq<Row>)
    requires forall k | 0 <= k < |rows| :: Acceptable(rows[k])
    ensures forall x | x in Kept(rows) :: Complete(x)
  {
    forall x | x in Kept(rows)
      ensures Complete(x)
    {
      var k :| 0 <= k < |rows| && rows[k] == x;
      assert Acceptable(rows[k]);
    }
  }

  /** When every row can be read, the sheet's cards are exactly the cards of
      the rows with a non-empty `NAME`, in their order. */
  lemma {:induction false} RowsCardsAreKeptRows(table: string, rows: seq<Row>)
    requires forall k | 0 <= k < |rows| :: Acceptable(rows[k])
    ensures forall x | x in Kept(rows) :: Complete(x)
    ensures RowsCards(table, rows) == Success(CardsOf(table, Kept(rows)))
    decreases |rows|, 1
  {
    KeptComplete(rows);
    if |rows| > 0 {
      RowsCardsStep(table, rows, rows[1..]);
    }
  }

  /** One readable row in front of the rows after it, whose cards are those
      of their kept rows. */
  lemma {:induction false} RowsCardsStep(table: string, rows: seq<Row>, tail: seq<Row>)
    requires |rows| > 0 && tail == rows[1..]
    requires forall k | 0 <= k < |rows| :: Acceptable(rows[k])
    ensures forall x | x in Kept(rows) :: Complete(x)
    ensures RowsCards(table, rows) == Success(CardsOf(table, Kept(rows)))
    decreases |rows|, 0
  {
    assert forall k | 0 <= k < |tail| :: tail[k] == rows[k + 1];
    assert Acceptable(rows[0]);
    KeptComplete(rows);
    RowsCardsAreKeptRows(table, tail);
    var cards := CardsOf(table, Kept(tail));
    if Skipped(rows[0]) {
      assert RowCard(table, rows[0]) == Success(None);
      assert Kept(rows) == Kept(tail);
    } else {
      KeptRowCard(table, rows[0]);
      var card := Card(ReadContact(table, rows[0]).value);
      assert RowsCards(table, rows) == Success([card] + cards);
      KeptCons(table, rows, tail);
    }
  }

  /** A kept row puts its card in front of the cards of the rows after it. */
  lemma {:induction false} KeptCons(table: string, rows: seq<Row>, tail: seq<Row>)
    requires |rows| > 0 && tail == rows[1..] && !Skipped(rows[0])
    requires forall x | x in Kept(rows) :: Complete(x)
    requires forall x | x in Kept(tail) :: Complete(x)
    ensures CardsOf(table, Kept(rows)) == [Card(ReadContact(table, rows[0]).value)] + CardsOf(table, Kept(tail))
  {
    var kept := [rows[0]] + Kept(tail);
    assert Kept(rows) == kept;
    assert kept[1..] == Kept(tail);
  }

  /** When a sheet fails, it fails at its first row that is neither skipped
      nor complete, naming a column that row lacks. */
  lemma {:induction false} RowsCardsFailsAtFirstBadRow(table: string, rows: seq<Row>)
    requires RowsCards(table, rows).Failure?
    ensures exists k :: FirstBadRow(table, rows, k, RowsCards(table, rows).error)
    decreases |rows|
  {
    var tail := rows[1..];
    var e := RowsCards(table, rows).error;
    RowsCardsFailureStep(table, rows, tail);
    if RowCard(table, rows[0]).Failure? {
      assert FirstBadRow(table, rows, 0, e);
    } else {
      RowsCardsFailsAtFirstBadRow(table, tail);
      var k :| FirstBadRow(table, tail, k, e);
      FirstBadRowOfTail(table, rows, tail, k, e);
    }
  }

  /** Row `k` is the first row neither skipped nor complete, and `e` is its
      error. */
  predicate FirstBadRow(table: string, rows: seq<Row>, k: int, e: ExportError)
  {
    0 <= k < |rows| && !Acceptable(rows[k]) && (forall j | 0 <= j < k :: Acceptable(rows[j]))
    && e == RowCard(table, rows[k]).error
  }

  lemma {:induction false} FirstBadRowOfTail(table: string, rows: seq<Row>, tail: seq<Row>, k: int, e: ExportError)
    requires |rows| > 0 && tail == rows[1..] && Acceptable(rows[0])
    requires FirstBadRow(table, tail, k, e)
    ensures FirstBadRow(table, rows, k + 1, e)
  {
    assert rows[k + 1] == tail[k];
    assert forall j | 1 <= j < k + 1 :: rows[j] == tail[j - 1];
  }

  /** A failing sequence of rows fails at its first row or else in its tail,
      with the same error. */
  lemma {:induction false} RowsCardsFailureStep(table: string, rows: seq<Row>, tail: seq<Row>)
    requires RowsCards(table, rows).Failure? && |rows| > 0 && tail == rows[1..]
    ensures RowCard(table, rows[0]).Failure? ==>
      RowsCards(table, rows).error == RowCard(table, rows[0]).error
    ensures RowCard(table, rows[0]).Success? ==>
      RowsCards(table, tail).Failure? && RowsCards(table, tail).error == RowsCards(table, rows).error
  {
  }

  /** The contact of a complete row is its cells, in template order,
      sanitised. */
  lemma {:induction false} ReadContactCells(table: string, row: Row)
    requires Complete(row)
    ensures Cells(table, row, CardColumns).Success?
    ensures ReadContact(table, row) == Success(Sanitized(Cells(table, row, CardColumns).value))
  {
  }

  /** A complete row whose raw `NAME` is not empty becomes the card of its
      contact. */
  lemma {:induction false} KeptRowCard(table: string, row: Row)
    requires Complete(row) && !Skipped(row)
    ensures RowCard(table, row) == Success(Some(Card(ReadContact(table, row).value)))
  {
    assert CardColumns[1] == "NAME";
  }

  /** A sheet of one row that becomes a card holds just that card. */
  lemma {:induction false} OneRowCards(table: string, rows: seq<Row>)
    requires |rows| == 1 && Complete(rows[0]) && !Skipped(rows[0])
    ensures RowsCards(table, rows) == Success([Card(ReadContact(table, rows[0]).value)])
  {
    var card := Card(ReadContact(table, rows[0]).value);
    KeptRowCard(table, rows[0]);
    var rest := RowsCards(table, rows[1..]);
    assert rest == Success([]);
    assert RowsCards(table, rows).Success?;
    assert RowsCards(table, rows).value == [card] + rest.value;
    assert [card] + rest.value == [card];
  }

  /** A name cell of white space alone sanitises to the empty name. */
  lemma {:induction false} BlankNameBecomesEmpty(v: seq<string>)
    requires |v| == |CardColumns| && v[1] == " "
    ensures Sanitized(v).name == ""
  {
    var blank := v[1];
    assert IsWhiteSpace(blank[0]);
    FixCharsOfWhiteSpace(blank);
  }

  /** A `NAME` of one space is not empty, so a sheet whose one row has it
      keeps that row, even though the sanitised name on its card is empty. */
  lemma {:induction false} BlankNameKept(table: string, rows: seq<Row>)
    requires |rows| == 1 && Complete(rows[0]) && "NAME" in rows[0] && rows[0]["NAME"] == " "
    ensures RowsCards(table, rows) == Success([Card(ReadContact(table, rows[0]).value)])
    ensures ReadContact(table, rows[0]).value.name == ""
  {
    var row := rows[0];
    KeptRowCard(table, row);
    OneRowCards(table, rows);
    ReadContactCells(table, row);
    var v := Cells(table, row, CardColumns).value;
    assert CardColumns[1] == "NAME";
    BlankNameBecomesEmpty(v);
  }

  /** An empty phone cell sanitises to a lone `+`. */
  lemma {:induction false} EmptyPhoneBecomesPlus(v: seq<string>)
    requires |v| == |CardColumns| && v[4] == ""
    ensures Sanitized(v).phone == "+"
  {
    var empty := v[4];
    FixCharsOfWhiteSpace(empty);
    CheckPhoneIdempotent(empty);
  }

  /** The phone line of a card whose phone is a lone `+`. */
  lemma {:induction false} PlusPhoneLine(c: Contact)
    requires c.phone == "+"
    ensures CardLines(c)[6] == "TEL;CELL:+"
  {
  }

  /** An empty phone cell gives the card line `TEL;CELL:+`. */
  lemma {:induction false} EmptyPhoneLine(table: string, row: Row)
    requires Complete(row) && "PHONE NUMBER" in row && row["PHONE NUMBER"] == ""
    ensures CardLines(ReadContact(table, row).value)[6] == "TEL;CELL:+"
  {
    ReadContactCells(table, row);
    var v := Cells(table, row, CardColumns).value;
    assert CardColumns[4] == "PHONE NUMBER";
    EmptyPhoneBecomesPlus(v);
    PlusPhoneLine(Sanitized(v));
  }

  /** No line of a card from clean values holds a real line feed, so each
      card takes exactly one line of the file when it is read at its line
      feeds. */
  lemma {:induction false} CardOnOneLine(c: Contact)
    requires CleanContact(c)
    ensures '\n' !in Card(c)
  {
    var lines := CardLines(c);
    forall k | 0 <= k < |lines|
      ensures '\n' !in lines[k]
    {
    }
    assert '\n' !in CardBreak;
  }

  /** No value of the contact holds a carriage return. `FixChars` keeps a
      lone one, which a reader that also breaks lines at carriage returns
      would take as a line break. */
  predicate NoCarriageReturn(c: Contact)
  {
    '\r' !in c.surname && '\r' !in c.name && '\r' !in c.company && '\r' !in c.jobTitle
    && '\r' !in c.phone && '\r' !in c.street && '\r' !in c.city && '\r' !in c.postcode
    && '\r' !in c.country && '\r' !in c.url && '\r' !in c.email
  }

  /** A card from clean values without carriage returns holds no line break
      of any kind, so it takes one line of the file for every reader. */
  lemma {:induction false} CardWithoutLineBreaks(c: Contact)
    requires CleanContact(c) && NoCarriageReturn(c)
    ensures '\n' !in Card(c) && '\r' !in Card(c)
  {
    var lines := CardLines(c);
    forall k | 0 <= k < |lines|
      ensures '\n' !in lines[k] && '\r' !in lines[k]
    {
    }
    assert '\n' !in CardBreak && '\r' !in CardBreak;
  }

  /** Every card starts with the `BEGIN:VCARD` and `VERSION:3.0` lines and
      ends with the `END:VCARD` line, each separated by a `\n` escape. */
  lemma {:induction false} CardFrame(c: Contact)
    ensures StartsWith(Card(c), "BEGIN:VCARD" + CardBreak + "VERSION:3.0" + CardBreak)
    ensures EndsWith(Card(c), CardBreak + "END:VCARD")
  {
    var lines := CardLines(c);
    var rest := Join(CardBreak, lines[2..]);
    assert lines[1..][1..] == lines[2..];
    assert Join(CardBreak, lines[1..]) == lines[1] + CardBreak + rest;
    assert Card(c) == lines[0] + CardBreak + (lines[1] + CardBreak + rest);
    assert Card(c) == ("BEGIN:VCARD" + CardBreak + "VERSION:3.0" + CardBreak) + rest;
    JoinLast(CardBreak, lines);
  }

  /** Cut at its `\n` escapes, a card gives back its eleven lines, as long as
      no value on it holds a backslash. */
  lemma {:induction false} CardReadsBack(c: Contact)
    requires '\\' !in c.surname && '\\' !in c.name && '\\' !in c.company
    requires '\\' !in c.jobTitle && '\\' !in c.phone && '\\' !in c.street
    requires '\\' !in c.city && '\\' !in c.postcode && '\\' !in c.country
    requires '\\' !in c.url && '\\' !in c.email
    ensures Split(Card(c), CardBreak) == CardLines(c)
  {
    var lines := CardLines(c);
    assert forall k | 0 <= k < 6 :: '\\' !in lines[k] by {
      NameLinesUnescaped(c, lines);
    }
    assert forall k | 6 <= k < |lines| :: '\\' !in lines[k] by {
      AddressLinesUnescaped(c, lines);
    }
    EscapedJoinSplits(lines);
  }

  lemma {:induction false} NameLinesUnescaped(c: Contact, lines: seq<string>)
    requires '\\' !in c.surname && '\\' !in c.name && '\\' !in c.company && '\\' !in c.jobTitle
    requires lines == CardLines(c)
    ensures forall k | 0 <= k < 6 :: '\\' !in lines[k]
  {
  }

  lemma {:induction false} AddressLinesUnescaped(c: Contact, lines: seq<string>)
    requires '\\' !in c.phone && '\\' !in c.street && '\\' !in c.city && '\\' !in c.postcode
    requires '\\' !in c.country && '\\' !in c.url && '\\' !in c.email
    requires lines == CardLines(c)
    ensures forall k | 6 <= k < |lines| :: '\\' !in lines[k]
  {
  }

  /** Lines without a backslash, joined by `\n` escapes, cut back apart at them. */
  lemma {:induction false} EscapedJoinSplits(lines: seq<string>)
    requires |lines| >= 1
    requires forall k | 0 <= k < |lines| :: '\\' !in lines[k]
    ensures Split(Join(CardBreak, lines), CardBreak) == lines
  {
    forall k | 0 <= k < |lines|
      ensures !Contains(lines[k], CardBreak)
    {
      MissingCharNotContained(lines[k], CardBreak, '\\');
    }
    var sep := CardBreak;
    assert sep[..1][0] == '\\' && sep[1..][0] == 'n';
    assert Unbordered(sep);
    JoinSplit(CardBreak, lines);
  }

  /** The path of a sheet's file: beside the workbook, named after the
      workbook without its extension, an `_`, the lower-cased sheet name and
      `.txt`. */
  function SheetPath(directory: string, fileName: string, table: string): string
  {
    Combine(directory, StripExtension(fileName) + "_" + ToLower(table) + ".txt")
  }

  /** A sheet's file lies in the workbook's directory and is named after
      the workbook without its extension, an `_`, the lower-cased sheet name
      and `.txt`. */
  lemma {:induction false} SheetPathShape(directory: string, fileName: string, table: string)
    requires directory != "" && !IsRooted(StripExtension(fileName) + "_")
    ensures StartsWith(SheetPath(directory, fileName, table), directory)
    ensures EndsWith(SheetPath(directory, fileName, table), StripExtension(fileName) + "_" + ToLower(table) + ".txt")
  {
  }

  /** The text of a sheet's file: the header line, then each card followed
      by a Windows line break. */
  function Content(cards: seq<string>): string
  {
    Header + Lines(cards)
  }

  /** Read back at its line feeds, a file gives the header, then each card
      once, in order, with the carriage return of its line break, then one
      empty piece. */
  lemma {:induction false} ContentReadsBack(cards: seq<string>)
    requires forall k | 0 <= k < |cards| :: '\n' !in cards[k]
    ensures Split(Content(cards), "\n") == ["#QRCodes"] + WithCarriageReturn(cards) + [""]
  {
    var head := "#QRCodes";
    assert Header == head + "\n";
    ContainsChar(head, '\n');
    LinesSplit(cards);
    SplitAfterHead(head, "\n", Lines(cards));
  }

  /** A sheet as the export loop sees it: its name and what reading its rows
      gave. */
  datatype SheetCards = SheetCards(name: string, cards: Result<seq<string>, ExportError>)

  /** Every sheet read into its cards. Reading has no effects, so reading
      them all up front and using them in order is the same as reading each
      one when the loop reaches it. */
  function ReadSheets(tables: seq<Table>): seq<SheetCards>
  {
    seq(|tables|, k requires 0 <= k < |tables| => SheetCards(tables[k].name, TableCards(tables[k])))
  }

  /** The file of a sheet whose rows can all be read holds the header line
      and then one line per kept row, in order. */
  lemma {:induction false} SheetFileLines(t: Table)
    requires TableCards(t).Success?
    ensures |TableCards(t).value| == |Kept(t.rows)|
    ensures Split(Content(TableCards(t).value), "\n") == ["#QRCodes"] + WithCarriageReturn(TableCards(t).value) + [""]
  {
    RowsCardsAreKeptRows(t.name, t.rows);
    ContentReadsBack(TableCards(t).value);
  }

  /** One pass of the export loop over `sheet`, after the sheets before it
      left `before`: nothing more happens once an exception has been raised;
      otherwise a sheet whose cards cannot be read raises its error, a
      workbook without a directory raises `Directory not found`, and else the
      sheet's file is written, replacing any file of the same path. */
  function ExportStep(before: ExportRun, directory: Option<string>, fileName: string, sheet: SheetCards): ExportRun
  {
    if before.error.Some? then before
    else
      match sheet.cards
      case Failure(e) => ExportRun(before.disk, Some(e))
      case Success(cards) =>
        match directory
        case None => ExportRun(before.disk, Some(DirectoryNotFound))
        case Some(d) => ExportRun(before.disk[SheetPath(d, fileName, sheet.name) := Content(cards)], None)
  }

  /** The sheets in order, each written to its file once its cards are read;
      the first failure stops the export, keeping the files already written. */
  function ExportSheets(directory: Option<string>, fileName: string, sheets: seq<SheetCards>): (r: ExportRun)
    ensures r.error.None? <==>
      (|sheets| == 0 || directory.Some?) && forall k | 0 <= k < |sheets| :: sheets[k].cards.Success?
    ensures directory.None? ==> r.disk == map[]
    decreases |sheets|
  {
    if |sheets| == 0 then ExportRun(map[], None)
    else
      var n := |sheets| - 1;
      var before := ExportSheets(directory, fileName, sheets[..n]);
      assert forall k | 0 <= k < n :: sheets[..n][k] == sheets[k];
      ExportStep(before, directory, fileName, sheets[n])
  }

  /** The error an export raises is `Directory not found` or the error of one
      of its sheets. */
  lemma {:induction false} ExportErrorOrigin(directory: Option<string>, fileName: string, sheets: seq<SheetCards>)
    requires ExportSheets(directory, fileName, sheets).error.Some?
    ensures var e := ExportSheets(directory, fileName, sheets).error.value;
      e == DirectoryNotFound || exists k | 0 <= k < |sheets| :: sheets[k].cards == Failure(e)
    decreases |sheets|
  {
    var n := |sheets| - 1;
    var front := sheets[..n];
    var before := ExportSheets(directory, fileName, front);
    if before.error.Some? {
      ExportErrorOrigin(directory, fileName, front);
      assert forall k | 0 <= k < n :: front[k] == sheets[k];
    }
  }

  /** The paths the files of `sheets` are written to. */
  function SheetPaths(directory: string, fileName: string, sheets: seq<SheetCards>): set<string>
  {
    set s | s in sheets :: SheetPath(directory, fileName, s.name)
  }

  lemma {:induction false} SheetPathsLast(directory: string, fileName: string, sheets: seq<SheetCards>)
    requires |sheets| > 0
    ensures var n := |sheets| - 1;
      SheetPaths(directory, fileName, sheets)
      == SheetPaths(directory, fileName, sheets[..n]) + {SheetPath(directory, fileName, sheets[n].name)}
  {
    var n := |sheets| - 1;
    assert sheets == sheets[..n] + [sheets[n]];
  }

  /** The files an export writes are files of its sheets, and a complete
      export writes the file of every sheet and nothing else. */
  lemma {:induction false} ExportedPaths(directory: string, fileName: string, sheets: seq<SheetCards>)
    ensures ExportSheets(Some(directory), fileName, sheets).disk.Keys <= SheetPaths(directory, fileName, sheets)
    ensures ExportSheets(Some(directory), fileName, sheets).error.None? ==>
      ExportSheets(Some(directory), fileName, sheets).disk.Keys == SheetPaths(directory, fileName, sheets)
    decreases |sheets|
  {
    if |sheets| > 0 {
      var n := |sheets| - 1;
      ExportedPaths(directory, fileName, sheets[..n]);
      SheetPathsLast(directory, fileName, sheets);
    }
  }

  /** `CreateVCardTemplateFilesAsync`: a workbook without sheets is an error
      before anything is written; otherwise the sheets are exported in order. */
  function ExportWorkbook(wb: Workbook): (r: ExportRun)
    ensures r.error == Some(NoSheets) <==> |wb.tables| == 0
    ensures r.error == Some(NoSheets) ==> r.disk == map[]
    ensures r.error.None? <==>
      |wb.tables| > 0 && wb.directory.Some? && forall k | 0 <= k < |wb.tables| :: TableCards(wb.tables[k]).Success?
  {
    if |wb.tables| == 0 then ExportRun(map[], Some(NoSheets))
    else
      var sheets := ReadSheets(wb.tables);
      assert forall k | 0 <= k < |wb.tables| :: sheets[k].cards == TableCards(wb.tables[k]);
      var r := ExportSheets(wb.directory, wb.fileName, sheets);
      assert r.error != Some(NoSheets) by {
        if r.error.Some? {
          ExportErrorOrigin(wb.directory, wb.fileName, sheets);
        }
      }
      r
  }

  /** After a complete export, a sheet's file holds that sheet's cards
      unless a later sheet maps to the same path. */
  lemma {:induction false} LastSheetWins(directory: string, fileName: string, sheets: seq<SheetCards>, k: nat)
    requires ExportSheets(Some(directory), fileName, sheets).error.None?
    requires k < |sheets|
    requires forall j | k < j < |sheets| :: SheetPath(directory, fileName, sheets[j].name) != SheetPath(directory, fileName, sheets[k].name)
    ensures sheets[k].cards.Success?
    ensures SheetPath(directory, fileName, sheets[k].name) in ExportSheets(Some(directory), fileName, sheets).disk
    ensures ExportSheets(Some(directory), fileName, sheets).disk[SheetPath(directory, fileName, sheets[k].name)]
      == Content(sheets[k].cards.value)
    decreases |sheets|
  {
    var n := |sheets| - 1;
    var front := sheets[..n];
    var before := ExportSheets(Some(directory), fileName, front);
    var path := SheetPath(directory, fileName, sheets[k].name);
    assert ExportSheets(Some(directory), fileName, sheets) == ExportStep(before, Some(directory), fileName, sheets[n]);
    assert sheets[k].cards.Success?;
    if k < n {
      assert front[k] == sheets[k];
      assert forall j | k < j < n :: front[j] == sheets[j];
      LastSheetWins(directory, fileName, front, k);
      StepKeepsOtherFiles(before, directory, fileName, sheets[n], path);
    }
  }

  /** A sheet written after a clean run leaves every other file as it was. */
  lemma {:induction false} StepKeepsOtherFiles(before: ExportRun, directory: string, fileName: string, sheet: SheetCards, path: string)
    requires before.error.None? && sheet.cards.Success?
    requires path in before.disk && path != SheetPath(directory, fileName, sheet.name)
    ensures path in ExportStep(before, Some(directory), fileName, sheet).disk
    ensures ExportStep(before, Some(directory), fileName, sheet).disk[path] == before.disk[path]
  {
  }

  /** An export stops at the first sheet whose cards cannot be read: the
      files of the sheets before it stay as written and the error is that
      sheet's. */
  lemma {:induction false} ExportStopsAtFirstFailure(directory: string, fileName: string, sheets: seq<SheetCards>, k: nat)
    requires k < |sheets| && sheets[k].cards.Failure?
    requires forall j | 0 <= j < k :: sheets[j].cards.Success?
    ensures ExportSheets(Some(directory), fileName, sheets)
      == ExportRun(ExportSheets(Some(directory), fileName, sheets[..k]).disk, Some(sheets[k].cards.error))
    decreases |sheets|
  {
    var n := |sheets| - 1;
    var front := sheets[..n];
    var before := ExportSheets(Some(directory), fileName, front);
    assert ExportSheets(Some(directory), fileName, sheets) == ExportStep(before, Some(directory), fileName, sheets[n]);
    if k < n {
      assert front[k] == sheets[k] && front[..k] == sheets[..k];
      assert forall j | 0 <= j < k :: front[j] == sheets[j];
      ExportStopsAtFirstFailure(directory, fileName, front, k);
    } else {
      assert forall j | 0 <= j < n :: front[j] == sheets[j];
      assert before.error.None?;
    }
  }

  /** Without a directory nothing is written, and the first sheet that can be
      read raises `Directory not found`. */
  lemma {:induction false} ExportWithoutDirectory(fileName: string, sheets: seq<SheetCards>)
    requires |sheets| > 0 && sheets[0].cards.Success?
    ensures ExportSheets(None, fileName, sheets) == ExportRun(map[], Some(DirectoryNotFound))
    decreases |sheets|
  {
    var n := |sheets| - 1;
    if n > 0 {
      var front := sheets[..n];
      assert front[0] == sheets[0];
      ExportWithoutDirectory(fileName, front);
    }
  }

  /** Two sheets whose names differ only in letter case share one file, and
      the later sheet's cards are what it holds. */
  lemma {:induction false} SheetsDifferingInCaseShareFile(directory: string, fileName: string, a: Table, b: Table)
    requires ToLower(a.name) == ToLower(b.name)
    requires TableCards(a).Success? && TableCards(b).Success?
    ensures ExportWorkbook(Workbook(Some(directory), fileName, [a, b])).disk
      == map[SheetPath(directory, fileName, b.name) := Content(TableCards(b).value)]
  {
    var sheets := ReadSheets([a, b]);
    var path := SheetPath(directory, fileName, b.name);
    assert SheetPath(directory, fileName, a.name) == path;
    var s1 := sheets[..1];
    assert |s1| == 1 && s1[0] == sheets[0] && s1[..0] == [];
    assert ExportSheets(Some(directory), fileName, s1[..0]) == ExportRun(map[], None);
    var first := ExportSheets(Some(directory), fileName, s1);
    assert first.disk == map[][path := Content(TableCards(a).value)];
    assert sheets[..1] == s1;
  }
}

=== FILE: filesystem.dfy ===
/** The parts of `System.IO.Path` and of the text-file writers that the
    converter uses, with the Windows conventions of its target platform:
    `\` and `/` both separate directories and `X:` names a drive. */
module FileSystem {
  import opened Results
  import opened Text

  /** `Environment.NewLine` on Windows. */
  const NewLine: string := "\r\n"

  predicate IsSeparator(c: char)
  {
    c == '\\' || c == '/'
  }

  predicate IsAsciiLetter(c: char)
  {
    ('a' <= c <= 'z') || ('A' <= c <= 'Z')
  }

  /** `Path.IsPathRooted`: starts with a separator or with a drive `X:`. */
  predicate IsRooted(p: string)
  {
    (|p| >= 1 && IsSeparator(p[0])) || (|p| >= 2 && IsAsciiLetter(p[0]) && p[1] == ':')
  }

  /** `Path.Combine(a, b)`: a rooted `b` replaces `a`; otherwise the two are
      joined with one `\` unless a separator already stands between them. */
  function Combine(a: string, b: string): (r: string)
    ensures b == "" ==> r == a
    ensures b != "" && (a == "" || IsRooted(b)) ==> r == b
    ensures a != "" && b != "" && !IsRooted(b) ==> StartsWith(r, a) && EndsWith(r, b)
    ensures a != "" && b != "" && !IsRooted(b) ==>
      |r| >= |a| + |b| && (IsSeparator(r[|a| - 1]) || IsSeparator(r[|a|]))
    ensures |r| <= |a| + |b| + 1
  {
    if b == "" then a
    else if a == "" then b
    else if IsRooted(b) then b
    else if IsSeparator(a[|a| - 1]) || IsSeparator(b[0]) then a + b
    else
      assert (a + "\\" + b)[..|a|] == a;
      a + "\\" + b
  }

  /** No character of `p` from index `k` on is a `.` or a separator. */
  predicate PlainFrom(p: string, k: nat)
  {
    forall j | k <= j < |p| :: p[j] != '.' && !IsSeparator(p[j])
  }

  /** Some directory separator of `p` comes after index `k`. */
  predicate SeparatorAfter(p: string, k: nat)
  {
    exists j | k < j < |p| :: IsSeparator(p[j])
  }

  /** The index of the `.` that starts the extension of the last path segment:
      the last `.` of `p` with no separator after it. */
  function ExtensionDot(p: string): (r: Option<nat>)
    ensures r.Some? ==> r.value < |p| && p[r.value] == '.' && PlainFrom(p, r.value + 1)
    ensures r.None? ==> forall k | 0 <= k < |p| && p[k] == '.' :: SeparatorAfter(p, k)
    decreases |p|
  {
    if |p| == 0 then None
    else if p[|p| - 1] == '.' then Some(|p| - 1)
    else if IsSeparator(p[|p| - 1]) then None
    else ExtensionDot(p[..|p| - 1])
  }

  /** The last segment of `p` has an extension: some dot other than the
      final character has neither a dot nor a separator after it. */
  predicate HasExtension(p: string)
  {
    exists k | 0 <= k < |p| - 1 :: p[k] == '.' && PlainFrom(p, k + 1)
  }

  /** `Path.GetExtension`: the extension of the last segment with its dot,
      or empty when the segment has no dot or ends with one. */
  function GetExtension(p: string): (e: string)
    ensures e == "" || (|e| >= 2 && e[0] == '.' && EndsWith(p, e) && PlainFrom(e, 1))
    ensures e != "" <==> HasExtension(p)
  {
    match ExtensionDot(p)
    case None =>
      forall k | 0 <= k < |p| - 1 && p[k] == '.'
        ensures !PlainFrom(p, k + 1)
      {
        assert SeparatorAfter(p, k);
        var j :| k < j < |p| && IsSeparator(p[j]);
      }
      ""
    case Some(i) =>
      if i == |p| - 1 then
        forall k | 0 <= k < |p| - 1 && p[k] == '.'
          ensures !PlainFrom(p, k + 1)
        {
          assert p[|p| - 1] == '.';
        }
        ""
      else
        assert forall j | 1 <= j < |p| - i :: p[i..][j] == p[i + j];
        assert p[i] == '.' && PlainFrom(p, i + 1);
        p[i..]
  }

  /** `Path.ChangeExtension(p, ext)`: cuts `p` at the dot of its extension (if
      any) and appends `ext`, adding a dot when `ext` has none. */
  function ChangeExtension(p: string, ext: string): (r: string)
  {
    if p == "" then ""
    else
      var stem := match ExtensionDot(p) case None => p case Some(i) => p[..i];
      if ext != "" && ext[0] == '.' then stem + ext else stem + "." + ext
  }

  /** A final segment `.x`, with `x` free of dots and separators, is found
      as the extension whatever precedes it. */
  lemma {:induction false} ExtensionDotOfSuffix(a: string, b: string)
    requires |b| >= 1 && b[0] == '.' && PlainFrom(b, 1)
    ensures ExtensionDot(a + b) == Some(|a|)
    decreases |b|
  {
    var p := a + b;
    if |b| > 1 {
      assert p[|p| - 1] == b[|b| - 1];
      assert p[..|p| - 1] == a + b[..|b| - 1];
      ExtensionDotOfSuffix(a, b[..|b| - 1]);
    }
  }

  /** `ChangeExtension` replaces everything from the last dot of the final
      segment onwards, even when that dot was never meant as an extension:
      `A. Smith` with `.jpg` becomes `A.jpg`. */
  lemma {:induction false} ChangeExtensionCutsAtLastDot(a: string, b: string, ext: string)
    requires PlainFrom(b, 0)
    requires |ext| >= 1 && ext[0] == '.'
    ensures ChangeExtension(a + "." + b, ext) == a + ext
  {
    ExtensionDotOfSuffix(a, "." + b);
    assert a + "." + b == a + ("." + b);
    assert (a + ("." + b))[..|a|] == a;
  }

  /** Giving a path back its own extension leaves it unchanged. */
  lemma {:induction false} ChangeExtensionToOwn(p: string)
    requires GetExtension(p) != ""
    ensures ChangeExtension(p, GetExtension(p)) == p
  {
    var i := ExtensionDot(p).value;
    assert p[..i] + p[i..] == p;
  }

  /** After a change of extension to `.x`, with `x` a non-empty name free of
      dots and separators, the path reports `.x` as its extension. */
  lemma {:induction false} ExtensionOfChanged(p: string, ext: string)
    requires p != "" && |ext| >= 2 && ext[0] == '.' && PlainFrom(ext, 1)
    ensures GetExtension(ChangeExtension(p, ext)) == ext
  {
    var stem := match ExtensionDot(p) case None => p case Some(i) => p[..i];
    assert ChangeExtension(p, ext) == stem + ext;
    ExtensionDotOfSuffix(stem, ext);
    assert (stem + ext)[|stem|..] == ext;
  }

  /** `Path.GetFileNameWithoutExtension` of a bare file name: everything
      before its last dot. */
  function StripExtension(name: string): (r: string)
    ensures '.' !in name ==> r == name
    ensures '.' in name ==> |r| < |name| && r == name[..|r|] && name[|r|] == '.' && '.' !in name[|r| + 1..]
    decreases |name|
  {
    if |name| == 0 then name
    else if name[|name| - 1] == '.' then name[..|name| - 1]
    else
      var r := StripExtension(name[..|name| - 1]);
      assert '.' in name ==> '.' in name[..|name| - 1] by {
        if '.' in name {
          var k :| 0 <= k < |name| && name[k] == '.';
          assert name[..|name| - 1][k] == '.';
        }
      }
      if '.' in name then
        assert name[|r| + 1..] == name[..|name| - 1][|r| + 1..] + [name[|name| - 1]];
        r
      else name
  }

  /** The characters `File.WriteAllLines` and `File.AppendAllLines` write:
      every line followed by `Environment.NewLine`. */
  function Lines(lines: seq<string>): (r: string)
  {
    if |lines| == 0 then "" else lines[0] + NewLine + Lines(lines[1..])
  }

  /** Each line with the carriage return a line-feed split leaves on it. */
  function WithCarriageReturn(lines: seq<string>): seq<string>
  {
    seq(|lines|, i requires 0 <= i < |lines| => lines[i] + "\r")
  }

  /** A line ended by CR LF is the first piece of a line-feed split. */
  lemma {:induction false} SplitAfterLine(line: string, restText: string, restParts: seq<string>)
    requires '\n' !in line
    requires Split(restText, "\n") == restParts
    ensures Split(line + NewLine + restText, "\n") == [line + "\r"] + restParts
  {
    var head := line + "\r";
    ContainsChar(head, '\n');
    SplitAfterHead(head, "\n", restText);
    assert line + NewLine + restText == head + "\n" + restText;
  }

  lemma {:induction false} WithCarriageReturnCons(lines: seq<string>)
    requires |lines| > 0
    ensures WithCarriageReturn(lines) == [lines[0] + "\r"] + WithCarriageReturn(lines[1..])
  {
    var r, t := WithCarriageReturn(lines), WithCarriageReturn(lines[1..]);
    assert forall i | 0 < i < |lines| :: r[i] == t[i - 1];
  }

  /** Read back line by line (splitting at line feeds), the text written for
      `lines` gives each line once, in order, followed by one empty piece
      after the final line break. */
  lemma {:induction false} LinesSplit(lines: seq<string>)
    requires forall i | 0 <= i < |lines| :: '\n' !in lines[i]
    ensures Split(Lines(lines), "\n") == WithCarriageReturn(lines) + [""]
    decreases |lines|
  {
    if |lines| == 0 {
      assert !Contains("", "\n");
    } else {
      var rest := lines[1..];
      LinesSplit(rest);
      var restParts := WithCarriageReturn(rest) + [""];
      SplitAfterLine(lines[0], Lines(rest), restParts);
      WithCarriageReturnCons(lines);
    }
  }
}

=== FILE: identify.dfy ===
/** The scan of `BtnIdentifyFiles_Click`: every `.jpg` image of a folder,
    in ascending name order, is decoded as a QR code holding one vCard and
    copied under a name taken from that card into the `identified vCards`
    subfolder; images without a readable code are listed in
    `failed files.txt`. */
module Identify {
  import opened Results
  import opened Text
  import opened FileSystem
  import opened Ordinal
  import opened Settings

  /** `_subDirectory`. */
  const SubDirectory: string := "identified vCards"

  /** The report of unreadable images, written in the destination folder. */
  const FailedFilesName: string := "failed files.txt"

  /** What marks the name field: the custom field whose key contains it. */
  const FullNameKey: string := "FN"

  /** Appended to a reversed name. */
  const CardSuffix: string := "_vCard"

  /** The "add suffix" check box: unchecked names a copy after the card's
      full name, checked after its other field, reversed and suffixed. */
  datatype NamingMode = FullName | ReversedName

  /** A property of a parsed vCard that the parser keeps as a custom field. */
  datatype Field = Field(key: string, value: string)

  datatype VCard = VCard(customFields: seq<Field>)

  /** The image reader (the image's path and the decode height to the text
      of the QR code it shows, if any) and the vCard parser (text to the
      cards it holds). */
  datatype Scanner = Scanner(decode: (string, int) -> Option<string>, parse: string -> seq<VCard>)

  /** One scan: the chosen folder, the naming mode, the pixel-height setting
      as the configuration holds it, and the reader and parser. */
  datatype Request = Request(root: string, mode: NamingMode, setting: Option<string>, scanner: Scanner)

  /** The exceptions of `Single()` that end a scan. */
  datatype IdentifyError =
    | NotOneCard(file: string, count: nat)
    | NotOneField(file: string, count: nat)

  /** `File.Copy(source, destination, overwrite: true)`. */
  datatype Copy = Copy(source: string, destination: string)

  /** What the scan does with one image. */
  datatype Outcome = Unreadable | Identified(copy: Copy) | Aborted(error: IdentifyError)

  /** What a scan leaves behind: the unreadable images in the order met, the
      copies made in order, the destination folder as destination path to
      the source it was copied from, the error that stopped the scan, and
      the text of the report at `ReportPath` if one is written. */
  datatype IdentifyRun = IdentifyRun(
    failed: seq<string>, copies: seq<Copy>, destinations: map<string, string>,
    error: Option<IdentifyError>, report: Option<string>)

  /** `GetDestinationDirectory`. */
  function DestinationDirectory(root: string): string
  {
    Combine(root, SubDirectory)
  }

  /** The field the naming mode looks for: one whose key contains `FN` for
      the full name, one whose key does not for the reversed name. */
  predicate Wanted(mode: NamingMode, f: Field)
  {
    Contains(f.key, FullNameKey) <==> mode.FullName?
  }

  /** The fields the naming mode looks for, in order, each as often as the
      card has it. */
  function Matching(mode: NamingMode, fields: seq<Field>): (r: seq<Field>)
    ensures |r| <= |fields|
    ensures forall f :: multiset(r)[f] == if Wanted(mode, f) then multiset(fields)[f] else 0
  {
    if |fields| == 0 then []
    else
      var head := if Wanted(mode, fields[0]) then [fields[0]] else [];
      var rest := Matching(mode, fields[1..]);
      MatchingStep(mode, fields, head, rest);
      head + rest
  }

  /** One field in front of the matches of the rest: the counts add up. */
  lemma {:induction false} MatchingStep(mode: NamingMode, fields: seq<Field>, head: seq<Field>, rest: seq<Field>)
    requires |fields| > 0 && head == (if Wanted(mode, fields[0]) then [fields[0]] else [])
    requires forall f :: multiset(rest)[f] == if Wanted(mode, f) then multiset(fields[1..])[f] else 0
    ensures forall f :: multiset(head + rest)[f] == if Wanted(mode, f) then multiset(fields)[f] else 0
  {
    assert fields == [fields[0]] + fields[1..];
    assert multiset(fields) == multiset{fields[0]} + multiset(fields[1..]);
    assert multiset(head + rest) == multiset(head) + multiset(rest);
  }

  /** The matches are the wanted fields of the card: a field is among them
      exactly when the card has it and the naming mode looks for it. */
  lemma {:induction false} MatchingMembers(mode: NamingMode, fields: seq<Field>, f: Field)
    ensures f in Matching(mode, fields) <==> f in fields && Wanted(mode, f)
  {
    var r := Matching(mode, fields);
    assert f in r <==> multiset(r)[f] > 0;
    assert f in fields <==> multiset(fields)[f] > 0;
  }

  /** The base of a copy's name: the full name as it stands, or the other
      field trimmed, cut at its `;`, reversed, joined with `_` and given the
      `_vCard` suffix. */
  function BaseName(mode: NamingMode, value: string): string
  {
    match mode
    case FullName => value
    case ReversedName => Join("_", Reverse(Split(Trim(value), ";"))) + CardSuffix
  }

  /** Where an image is copied: the base name in the destination folder,
      with the image's extension put in place of whatever follows the last
      dot of the base name. */
  function Destination(root: string, mode: NamingMode, file: string, value: string): string
  {
    ChangeExtension(Combine(DestinationDirectory(root), BaseName(mode, value)), GetExtension(file))
  }

  /** The text of the QR code read from an image at the configured pixel
      height, if any. */
  function Decoded(req: Request, file: string): Option<string>
  {
    req.scanner.decode(file, PixelHeight(req.setting))
  }

  /** One image: unreadable when no code is decoded at the configured pixel
      height; otherwise its text must parse to exactly one card with exactly
      one field the naming mode looks for, and the image is copied, under the
      name that field gives, into the destination folder. A text with any
      other number of cards aborts the scan with that number; a card with any
      other number of wanted fields aborts it with the number of those. */
  function Classify(req: Request, file: string): (o: Outcome)
    ensures o.Unreadable? <==> Decoded(req, file).None?
    ensures o.Identified? <==>
      Decoded(req, file).Some?
      && |req.scanner.parse(Decoded(req, file).value)| == 1
      && |Matching(req.mode, req.scanner.parse(Decoded(req, file).value)[0].customFields)| == 1
    ensures o.Identified? ==>
      var card := req.scanner.parse(Decoded(req, file).value)[0];
      o.copy == Copy(Combine(req.root, file),
                     Destination(req.root, req.mode, file, Matching(req.mode, card.customFields)[0].value))
    ensures o.Aborted? ==> o.error.file == file && o.error.count != 1
    ensures o.Aborted? ==>
      var cards := req.scanner.parse(Decoded(req, file).value);
      if |cards| != 1 then o.error == NotOneCard(file, |cards|)
      else o.error == NotOneField(file, |Matching(req.mode, cards[0].customFields)|)
  {
    match Decoded(req, file)
    case None => Unreadable
    case Some(text) =>
      var cards := req.scanner.parse(text);
      if |cards| != 1 then Aborted(NotOneCard(file, |cards|))
      else
        var fields := Matching(req.mode, cards[0].customFields);
        if |fields| != 1 then Aborted(NotOneField(file, |fields|))
        else Identified(Copy(Combine(req.root, file), Destination(req.root, req.mode, file, fields[0].value)))
  }

  /** What the scan does with each image of `files`, in order. */
  function Outcomes(req: Request, files: seq<string>): seq<Outcome>
  {
    seq(|files|, k requires 0 <= k < |files| => Classify(req, files[k]))
  }

  /** The index of the first outcome that aborts the scan, or the number of
      outcomes when none does. */
  function FirstAbort(outcomes: seq<Outcome>): (i: nat)
    ensures i <= |outcomes|
    ensures forall j | 0 <= j < i :: !outcomes[j].Aborted?
    ensures i < |outcomes| ==> outcomes[i].Aborted?
  {
    if |outcomes| == 0 then 0
    else if outcomes[0].Aborted? then 0
    else
      var i := FirstAbort(outcomes[1..]);
      assert forall j | 1 <= j < i + 1 :: outcomes[j] == outcomes[1..][j - 1];
      i + 1
  }

  /** The reference list of unreadable images: those of `files` whose
      outcome is `Unreadable`, in order. */
  function FailedOf(files: seq<string>, outcomes: seq<Outcome>): (r: seq<string>)
    requires |files| == |outcomes|
    ensures |r| <= |files|
    decreases |files|
  {
    if |files| == 0 then []
    else
      var n := |files| - 1;
      var before := FailedOf(files[..n], outcomes[..n]);
      if outcomes[n].Unreadable? then before + [files[n]] else before
  }

  /** The unreadable list holds exactly the images whose outcome is
      `Unreadable`. */
  lemma {:induction false} FailedOfMembers(files: seq<string>, outcomes: seq<Outcome>)
    requires |files| == |outcomes|
    ensures forall k | 0 <= k < |files| && outcomes[k].Unreadable? :: files[k] in FailedOf(files, outcomes)
    ensures forall x | x in FailedOf(files, outcomes) ::
      exists k | 0 <= k < |files| :: files[k] == x && outcomes[k].Unreadable?
    decreases |files|
  {
    if |files| > 0 {
      var n := |files| - 1;
      var front, done := files[..n], outcomes[..n];
      FailedOfMembers(front, done);
      FailedOfLast(files, outcomes);
      assert forall k | 0 <= k < n :: front[k] == files[k] && done[k] == outcomes[k];
    }
  }

  /** The reference list of copies: the copy of every identified image, in
      order. */
  function CopiesOf(outcomes: seq<Outcome>): (r: seq<Copy>)
    ensures |r| <= |outcomes|
    ensures forall k | 0 <= k < |outcomes| && outcomes[k].Identified? :: outcomes[k].copy in r
    ensures forall c | c in r :: Identified(c) in outcomes
    decreases |outcomes|
  {
    if |outcomes| == 0 then []
    else
      var n := |outcomes| - 1;
      var before := CopiesOf(outcomes[..n]);
      assert forall k | 0 <= k < n :: outcomes[..n][k] == outcomes[k];
      match outcomes[n]
      case Identified(c) => before + [c]
      case _ => before
  }

  /** The destination folder after the copies, in order: a later copy to the
      same destination replaces an earlier one. */
  function Applied(copies: seq<Copy>): (m: map<string, string>)
    ensures m.Keys == set c | c in copies :: c.destination
    decreases |copies|
  {
    if |copies| == 0 then map[]
    else
      var n := |copies| - 1;
      var before := Applied(copies[..n]);
      assert copies == copies[..n] + [copies[n]];
      before[copies[n].destination := copies[n].source]
  }

  /** Where the report of unreadable images goes: `failed files.txt` in the
      destination folder. */
  function ReportPath(root: string): (p: string)
    ensures StartsWith(p, DestinationDirectory(root)) && EndsWith(p, FailedFilesName)
  {
    Combine(DestinationDirectory(root), FailedFilesName)
  }

  /** The text of the report of unreadable images: written only when the
      scan finished and some image could not be read, one image per line. */
  function Report(failed: seq<string>, error: Option<IdentifyError>): (r: Option<string>)
    ensures r.Some? <==> error.None? && |failed| > 0
  {
    if error.None? && |failed| > 0 then Some(Lines(failed)) else None
  }

  /** Read as `;`-separated parts, the trimmed value gives its parts back
      in reverse order, joined by `_`, with the `_vCard` suffix. */
  lemma {:induction false} ReversedNameReversesParts(value: string, parts: seq<string>)
    requires |parts| >= 1 && forall k | 0 <= k < |parts| :: ';' !in parts[k]
    requires Trim(value) == Join(";", parts)
    ensures BaseName(ReversedName, value) == Join("_", Reverse(parts)) + CardSuffix
  {
    forall k | 0 <= k < |parts|
      ensures !Contains(parts[k], ";")
    {
      MissingCharNotContained(parts[k], ";", ';');
    }
    JoinSplit(";", parts);
  }

  /** A surname and a given name separated by `;` come out swapped. */
  lemma {:induction false} ReversedNameSwapsNames(value: string, surname: string, given: string)
    requires ';' !in surname && ';' !in given
    requires Trim(value) == surname + ";" + given
    ensures BaseName(ReversedName, value) == given + "_" + surname + CardSuffix
  {
    var parts := [surname, given];
    assert parts[1..] == [given];
    assert Join(";", parts) == surname + ";" + given;
    ReversedNameReversesParts(value, parts);
    var reversed := Reverse(parts);
    assert reversed == [given, surname];
    assert reversed[1..] == [surname];
  }

  /** A value whose first and last characters are not white space is its
      own trim. */
  lemma {:induction false} TrimOfPlainEnds(value: string)
    requires |value| > 0 && !IsWhiteSpace(value[0]) && !IsWhiteSpace(value[|value| - 1])
    ensures Trim(value) == value
  {
    TrimOfTrimmed(value, IsWhiteSpace);
  }

  /** `Doe;Jane` names the copy `Jane_Doe_vCard`. */
  lemma {:induction false} ReversedNameExample()
    ensures BaseName(ReversedName, "Doe;Jane") == "Jane_Doe_vCard"
  {
    var surname, given := "Doe", "Jane";
    assert surname + ";" + given == "Doe;Jane";
    assert given + "_" + surname + CardSuffix == "Jane_Doe_vCard";
    SwapsPlainNames(surname, given);
  }

  /** Two names without `;` or white space at the outer ends swap places. */
  lemma {:induction false} SwapsPlainNames(surname: string, given: string)
    requires surname != "" && given != "" && ';' !in surname && ';' !in given
    requires !IsWhiteSpace(surname[0]) && !IsWhiteSpace(given[|given| - 1])
    ensures BaseName(ReversedName, surname + ";" + given) == given + "_" + surname + CardSuffix
  {
    var value := surname + ";" + given;
    assert value[0] == surname[0] && value[|value| - 1] == given[|given| - 1];
    TrimOfPlainEnds(value);
    ReversedNameSwapsNames(value, surname, given);
  }

  /** Appending text that starts with a dot to a non-empty name never makes
      it rooted, so it combines the same way. */
  lemma {:induction false} CombineExtended(dir: string, a: string, t: string)
    requires a != "" && |t| > 0 && t[0] == '.'
    ensures Combine(dir, a + t) == Combine(dir, a) + t
  {
    var p := a + t;
    assert IsRooted(p) == IsRooted(a) by {
      assert p[0] == a[0];
      if |a| >= 2 {
        assert p[1] == a[1];
      } else {
        assert p[1] == t[0];
      }
    }
    if dir != "" && !IsRooted(a) {
      if IsSeparator(dir[|dir| - 1]) || IsSeparator(a[0]) {
        assert dir + p == dir + a + t;
      } else {
        assert dir + "\\" + p == dir + "\\" + a + t;
      }
    }
  }

  /** The full name is taken as a path, so whatever follows its last dot
      is replaced by the image's extension: a full name `a.b`, with `b` free
      of dots and separators, names the copy `a` plus that extension. */
  lemma {:induction false} FullNameCutsAtLastDot(root: string, file: string, a: string, b: string)
    requires a != "" && PlainFrom(b, 0)
    requires GetExtension(file) != ""
    ensures Destination(root, FullName, file, a + "." + b)
      == Combine(DestinationDirectory(root), a) + GetExtension(file)
  {
    var dir := DestinationDirectory(root);
    var ext := GetExtension(file);
    var front := Combine(dir, a);
    CombineDotted(dir, a, b, front);
    ChangeExtensionCutsAtLastDot(front, b, ext);
    DestinationOfFullName(root, file, a + "." + b, dir, ext);
  }

  lemma {:induction false} CombineDotted(dir: string, a: string, b: string, front: string)
    requires a != "" && front == Combine(dir, a)
    ensures Combine(dir, a + "." + b) == front + "." + b
  {
    var tail := "." + b;
    CombineExtended(dir, a, tail);
    assert a + "." + b == a + tail;
    assert front + tail == front + "." + b;
  }

  lemma {:induction false} DestinationOfFullName(root: string, file: string, value: string, dir: string, ext: string)
    requires dir == DestinationDirectory(root) && ext == GetExtension(file)
    ensures Destination(root, FullName, file, value) == ChangeExtension(Combine(dir, value), ext)
  {
  }

  /** The card of `A. Smith` scanned from `C:\scans\x.jpg` is copied to
      `C:\scans\identified vCards\A.jpg`. */
  lemma {:induction false} FullNameExample()
    ensures Destination("C:\\scans", FullName, "C:\\scans\\x.jpg", "A. Smith")
      == "C:\\scans\\identified vCards\\A.jpg"
  {
    var root, stem, ext, a, b := "C:\\scans", "C:\\scans\\x", ".jpg", "A", " Smith";
    assert stem + ext == "C:\\scans\\x.jpg" && a + "." + b == "A. Smith";
    assert root + "\\" + SubDirectory + "\\" + a + ext == "C:\\scans\\identified vCards\\A.jpg";
    FullNameInDestinationDirectory(root, stem, ext, a, b);
  }

  /** A full name `a.b` scanned from `stem.ext` below a plain root is copied
      to `a.ext` in the destination folder. */
  lemma {:induction false} FullNameInDestinationDirectory(root: string, stem: string, ext: string, a: string, b: string)
    requires root != "" && !IsSeparator(root[|root| - 1])
    requires a != "" && !IsRooted(a) && !IsSeparator(a[0]) && PlainFrom(b, 0)
    requires |ext| >= 2 && ext[0] == '.' && PlainFrom(ext, 1)
    ensures Destination(root, FullName, stem + ext, a + "." + b)
      == root + "\\" + SubDirectory + "\\" + a + ext
  {
    ExtensionOfSuffix(stem, ext);
    FullNameCutsAtLastDot(root, stem + ext, a, b);
    InDestinationDirectory(root, a);
  }

  /** A path ending in a dot and at least one character free of dots and
      separators has that ending as its extension. */
  lemma {:induction false} ExtensionOfSuffix(stem: string, ext: string)
    requires |ext| >= 2 && ext[0] == '.' && PlainFrom(ext, 1)
    ensures GetExtension(stem + ext) == ext
  {
    ExtensionDotOfSuffix(stem, ext);
    assert (stem + ext)[|stem|..] == ext;
  }

  /** Below a root that does not end in a separator, a plain name is put in
      the destination folder with one `\` on each side of the folder name. */
  lemma {:induction false} InDestinationDirectory(root: string, a: string)
    requires root != "" && !IsSeparator(root[|root| - 1])
    requires a != "" && !IsRooted(a) && !IsSeparator(a[0])
    ensures Combine(DestinationDirectory(root), a) == root + "\\" + SubDirectory + "\\" + a
  {
    var dir := DestinationDirectory(root);
    assert dir == root + "\\" + SubDirectory by {
      assert !IsRooted(SubDirectory) && !IsSeparator(SubDirectory[0]);
    }
    assert !IsSeparator(dir[|dir| - 1]);
  }

  /** A destination keeps the source of the last copy made to it. */
  lemma {:induction false} LastCopyWins(copies: seq<Copy>, k: nat)
    requires k < |copies|
    requires forall j | k < j < |copies| :: copies[j].destination != copies[k].destination
    ensures copies[k].destination in Applied(copies)
    ensures Applied(copies)[copies[k].destination] == copies[k].source
    decreases |copies|
  {
    var n := |copies| - 1;
    var front := copies[..n];
    AppliedLast(copies, front);
    if k < n {
      assert front[k] == copies[k];
      assert forall j | k < j < |front| :: front[j] == copies[j];
      LastCopyWins(front, k);
    }
  }

  lemma {:induction false} AppliedLast(copies: seq<Copy>, front: seq<Copy>)
    requires |copies| > 0 && front == copies[..|copies| - 1]
    ensures Applied(copies) == Applied(front)[copies[|copies| - 1].destination := copies[|copies| - 1].source]
  {
  }

  lemma {:induction false} FailedOfLast(files: seq<string>, outcomes: seq<Outcome>)
    requires |files| == |outcomes| > 0
    ensures var n := |files| - 1;
      FailedOf(files, outcomes)
      == FailedOf(files[..n], outcomes[..n]) + (if outcomes[n].Unreadable? then [files[n]] else [])
  {
  }

  lemma {:induction false} CopiesOfLast(outcomes: seq<Outcome>)
    requires |outcomes| > 0
    ensures var n := |outcomes| - 1;
      CopiesOf(outcomes)
      == CopiesOf(outcomes[..n]) + (if outcomes[n].Identified? then [outcomes[n].copy] else [])
  {
  }

  /** When nothing aborts, every image is either listed as unreadable or
      copied. */
  lemma {:induction false} EveryImageAccounted(files: seq<string>, outcomes: seq<Outcome>)
    requires |files| == |outcomes|
    requires forall k | 0 <= k < |outcomes| :: !outcomes[k].Aborted?
    ensures |FailedOf(files, outcomes)| + |CopiesOf(outcomes)| == |files|
    decreases |files|
  {
    if |files| > 0 {
      var n := |files| - 1;
      var front, done := files[..n], outcomes[..n];
      assert |FailedOf(front, done)| + |CopiesOf(done)| == n by {
        assert forall k | 0 <= k < n :: done[k] == outcomes[k];
        EveryImageAccounted(front, done);
      }
      FailedOfLast(files, outcomes);
      CopiesOfLast(outcomes);
    }
  }

  /** Unreadable images are listed in the order they are visited, so the
      list of a sorted listing is sorted. */
  lemma {:induction false} FailedInOrder(files: seq<string>, outcomes: seq<Outcome>)
    requires |files| == |outcomes| && Sorted(files)
    ensures Sorted(FailedOf(files, outcomes))
    decreases |files|
  {
    if |files| > 0 {
      var n := |files| - 1;
      var front, done := files[..n], outcomes[..n];
      assert Sorted(front) by {
        assert forall i | 0 <= i < n :: front[i] == files[i];
      }
      FailedInOrder(front, done);
      var before := FailedOf(front, done);
      if outcomes[n].Unreadable? {
        FailedOfLast(files, outcomes);
        FailedOfMembers(front, done);
        forall x | x in before
          ensures Below(x, files[n])
        {
          var k :| 0 <= k < |front| && front[k] == x && done[k].Unreadable?;
          assert files[k] == x;
        }
        SortedAppend(before, files[n]);
      } else {
        FailedOfLast(files, outcomes);
      }
    }
  }

  /** A sorted list stays sorted when an element no earlier than all of
      its elements is appended. */
  lemma {:induction false} SortedAppend(s: seq<string>, x: string)
    requires Sorted(s) && forall y | y in s :: Below(y, x)
    ensures Sorted(s + [x])
  {
    var r := s + [x];
    forall i, j | 0 <= i < j < |r|
      ensures Below(r[i], r[j])
    {
      assert r[i] == s[i] && r[i] in s;
    }
  }

  /** The report of a finished scan with unreadable images, read back line by
      line, lists each of them once, in order. */
  lemma {:induction false} ReportReadsBack(failed: seq<string>)
    requires |failed| > 0
    requires forall i | 0 <= i < |failed| :: '\n' !in failed[i]
    ensures Report(failed, None).Some?
    ensures Split(Report(failed, None).value, "\n") == WithCarriageReturn(failed) + [""]
  {
    LinesSplit(failed);
  }

  /** One more image that does not abort the scan adds itself to the
      unreadable list or its copy to the copies, and moves the first abort no
      earlier. */
  lemma {:induction false} ScanStep(files: seq<string>, outcomes: seq<Outcome>, i: nat)
    requires |files| == |outcomes| && i < |files| && !outcomes[i].Aborted? && i <= FirstAbort(outcomes)
    ensures i + 1 <= FirstAbort(outcomes)
    ensures FailedOf(files[..i + 1], outcomes[..i + 1])
      == FailedOf(files[..i], outcomes[..i]) + (if outcomes[i].Unreadable? then [files[i]] else [])
    ensures CopiesOf(outcomes[..i + 1])
      == CopiesOf(outcomes[..i]) + (if outcomes[i].Identified? then [outcomes[i].copy] else [])
  {
    assert files[..i + 1][..i] == files[..i];
    assert outcomes[..i + 1][..i] == outcomes[..i];
    FailedOfLast(files[..i + 1], outcomes[..i + 1]);
    CopiesOfLast(outcomes[..i + 1]);
  }

  /** The first abort is the first index that is past the end or aborts. */
  lemma {:induction false} FirstAbortAt(outcomes: seq<Outcome>, i: nat)
    requires i <= FirstAbort(outcomes)
    requires i == |outcomes| || outcomes[i].Aborted?
    ensures i == FirstAbort(outcomes)
  {
  }

  /** The first `i` images have been visited: the unreadable list, the copies
      and the destination folder are those of the first `i` outcomes. */
  predicate ScannedUpTo(files: seq<string>, outcomes: seq<Outcome>, i: nat,
                        failed: seq<string>, copies: seq<Copy>, destinations: map<string, string>)
    requires |files| == |outcomes| && i <= |files|
  {
    failed == FailedOf(files[..i], outcomes[..i]) && copies == CopiesOf(outcomes[..i])
    && destinations == Applied(copies)
  }

  /** Visiting one more image that does not abort keeps the scan in step with
      the reference lists. */
  lemma {:induction false} VisitKeepsStep(files: seq<string>, outcomes: seq<Outcome>, i: nat,
                                          failed: seq<string>, copies: seq<Copy>, destinations: map<string, string>)
    requires |files| == |outcomes| && i < |files| && !outcomes[i].Aborted? && i <= FirstAbort(outcomes)
    requires ScannedUpTo(files, outcomes, i, failed, copies, destinations)
    ensures i + 1 <= FirstAbort(outcomes)
    ensures outcomes[i].Unreadable? ==>
      ScannedUpTo(files, outcomes, i + 1, failed + [files[i]], copies, destinations)
    ensures outcomes[i].Identified? ==>
      var c := outcomes[i].copy;
      ScannedUpTo(files, outcomes, i + 1, failed, copies + [c], destinations[c.destination := c.source])
  {
    ScanStep(files, outcomes, i);
    if outcomes[i].Identified? {
      var c := outcomes[i].copy;
      AppliedLast(copies + [c], copies);
    }
  }

  /** The fold of `IdentifyvCards` over images already classified, up to the
      first one that aborts: unreadable ones are collected and identified
      ones copied, a later copy to a destination replacing an earlier one. */
  method ScanImages(files: seq<string>, outcomes: seq<Outcome>)
      returns (failed: seq<string>, copies: seq<Copy>, destinations: map<string, string>, stop: nat)
    requires |files| == |outcomes|
    ensures stop == FirstAbort(outcomes)
    ensures failed == FailedOf(files[..stop], outcomes[..stop]) && copies == CopiesOf(outcomes[..stop])
    ensures destinations == Applied(copies)
  {
    failed, copies, destinations := [], [], map[];
    stop := 0;
    while stop < |files| && !outcomes[stop].Aborted?
      invariant stop <= FirstAbort(outcomes)
      invariant ScannedUpTo(files, outcomes, stop, failed, copies, destinations)
    {
      VisitKeepsStep(files, outcomes, stop, failed, copies, destinations);
      if outcomes[stop].Unreadable? {
        failed := failed + [files[stop]];
      } else {
        var c := outcomes[stop].copy;
        copies := copies + [c];
        destinations := destinations[c.destination := c.source];
      }
      stop := stop + 1;
    }
    FirstAbortAt(outcomes, stop);
  }

  /** The fold of `IdentifyvCards` and the report after it: the first
      aborting image ends the scan with its error, keeping the copies already
      made, and the report is written only for a finished scan. */
  method Scan(files: seq<string>, outcomes: seq<Outcome>) returns (run: IdentifyRun)
    requires |files| == |outcomes|
    ensures var stop := FirstAbort(outcomes);
      run.failed == FailedOf(files[..stop], outcomes[..stop])
      && run.copies == CopiesOf(outcomes[..stop])
      && run.destinations == Applied(run.copies)
      && (run.error.None? <==> stop == |files|)
      && (run.error.Some? ==> run.error.value == outcomes[stop].error)
      && run.report == Report(run.failed, run.error)
  {
    var failed, copies, destinations, stop := ScanImages(files, outcomes);
    var error: Option<IdentifyError> := if stop < |files| then Some(outcomes[stop].error) else None;
    run := IdentifyRun(failed, copies, destinations, error, Report(failed, error));
  }

  /** `IdentifyvCards` and the report after it: the images of the listing are
      visited in ascending ordinal name order and each is classified. */
  method IdentifyImages(req: Request, listing: seq<string>) returns (run: IdentifyRun)
    ensures var files := Sort(listing);
      var outcomes := Outcomes(req, files);
      var stop := FirstAbort(outcomes);
      run.failed == FailedOf(files[..stop], outcomes[..stop])
      && run.copies == CopiesOf(outcomes[..stop])
      && run.destinations == Applied(run.copies)
      && (run.error.None? <==> stop == |files|)
      && (run.error.Some? ==> run.error.value == Classify(req, files[stop]).error)
      && run.report == Report(run.failed, run.error)
  {
    var files := Sort(listing);
    run := Scan(files, Outcomes(req, files));
  }
}

=== FILE: ordinal.dfy ===
/** The order in which the image scan visits files: `OrderBy(_ => _)` over
    the paths of the listing, taken as ordinal (character-code)
    lexicographic comparison. */
module Ordinal {

  /** `a` comes no later than `b` in ordinal lexicographic order. */
  predicate Below(a: string, b: string)
    decreases |a|
  {
    |a| == 0 || (|b| > 0 && (a[0] < b[0] || (a[0] == b[0] && Below(a[1..], b[1..]))))
  }

  lemma {:induction false} BelowReflexive(a: string)
    ensures Below(a, a)
    decreases |a|
  {
    if |a| > 0 {
      BelowReflexive(a[1..]);
    }
  }

  lemma {:induction false} BelowTotal(a: string, b: string)
    ensures Below(a, b) || Below(b, a)
    decreases |a|
  {
    if |a| > 0 && |b| > 0 && a[0] == b[0] {
      BelowTotal(a[1..], b[1..]);
    }
  }

  lemma {:induction false} BelowTransitive(a: string, b: string, c: string)
    requires Below(a, b) && Below(b, c)
    ensures Below(a, c)
    decreases |a|
  {
    if |a| > 0 && a[0] == b[0] && b[0] == c[0] {
      BelowTransitive(a[1..], b[1..], c[1..]);
    }
  }

  lemma {:induction false} BelowAntisymmetric(a: string, b: string)
    requires Below(a, b) && Below(b, a)
    ensures a == b
    decreases |a|
  {
    if |a| > 0 {
      BelowAntisymmetric(a[1..], b[1..]);
      assert a == [a[0]] + a[1..] && b == [b[0]] + b[1..];
    }
  }

  /** Every element comes no later than every element after it. */
  predicate Sorted(s: seq<string>)
  {
    forall i, j | 0 <= i < j < |s| :: Below(s[i], s[j])
  }

  /** An element no later than the head of a sorted sequence can go first. */
  lemma {:induction false} SortedBefore(x: string, s: seq<string>)
    requires Sorted(s) && |s| > 0 && Below(x, s[0])
    ensures Sorted([x] + s)
  {
    var r := [x] + s;
    forall i, j | 0 <= i < j < |r|
      ensures Below(r[i], r[j])
    {
      if i > 0 {
        assert r[i] == s[i - 1] && r[j] == s[j - 1];
      } else if j > 1 {
        BelowTransitive(x, s[0], s[j - 1]);
      }
    }
  }

  /** The head of a sorted sequence can go before any sorted arrangement of
      its tail and one more element that does not come before it. */
  lemma {:induction false} SortedAfter(x: string, s: seq<string>, rest: seq<string>)
    requires Sorted(s) && |s| > 0 && Below(s[0], x)
    requires Sorted(rest) && multiset(rest) == multiset(s[1..]) + multiset{x}
    ensures Sorted([s[0]] + rest)
  {
    var r := [s[0]] + rest;
    forall i, j | 0 <= i < j < |r|
      ensures Below(r[i], r[j])
    {
      if i > 0 {
        assert r[i] == rest[i - 1] && r[j] == rest[j - 1];
      } else {
        var y := rest[j - 1];
        assert y in multiset(rest);
        if y != x {
          assert y in multiset(s[1..]);
          var k :| 0 <= k < |s[1..]| && s[1..][k] == y;
          assert s[k + 1] == y;
        }
      }
    }
  }

  /** Inserts `x` into a sorted sequence before the first element it comes
      no later than. */
  function Insert(x: string, s: seq<string>): (r: seq<string>)
    requires Sorted(s)
    ensures Sorted(r)
    ensures multiset(r) == multiset(s) + multiset{x}
  {
    if |s| == 0 then [x]
    else if Below(x, s[0]) then
      SortedBefore(x, s);
      assert s == [s[0]] + s[1..];
      [x] + s
    else
      BelowTotal(x, s[0]);
      assert Sorted(s[1..]) by {
        assert forall i | 0 <= i < |s| - 1 :: s[1..][i] == s[i + 1];
      }
      var rest := Insert(x, s[1..]);
      SortedAfter(x, s, rest);
      assert s == [s[0]] + s[1..];
      [s[0]] + rest
  }

  /** Insertion sort: the listing in ascending ordinal order. */
  function Sort(s: seq<string>): (r: seq<string>)
    ensures Sorted(r)
    ensures multiset(r) == multiset(s)
  {
    if |s| == 0 then []
    else
      assert s == [s[0]] + s[1..];
      Insert(s[0], Sort(s[1..]))
  }

  /** Two sorted arrangements of the same elements start with the same one. */
  lemma {:induction false} SortedHeads(a: seq<string>, b: seq<string>)
    requires Sorted(a) && Sorted(b) && multiset(a) == multiset(b)
    requires |a| > 0
    ensures |b| > 0 && a[0] == b[0]
  {
    assert a[0] in multiset(b);
    assert b[0] in multiset(a);
    var i :| 0 <= i < |b| && b[i] == a[0];
    var j :| 0 <= j < |a| && a[j] == b[0];
    if i == 0 { BelowReflexive(b[0]); }
    if j == 0 { BelowReflexive(a[0]); }
    BelowAntisymmetric(a[0], b[0]);
  }

  lemma {:induction false} TailMultiset(a: seq<string>)
    requires |a| > 0
    ensures multiset(a[1..]) == multiset(a) - multiset{a[0]}
  {
    assert a == [a[0]] + a[1..];
  }

  /** Two sorted arrangements of the same elements are identical, so the
      order of visits depends only on which files there are, never on the
      order the directory listing returned them in. */
  lemma {:induction false} SortedUnique(a: seq<string>, b: seq<string>)
    requires Sorted(a) && Sorted(b) && multiset(a) == multiset(b)
    ensures a == b
    decreases |a|
  {
    if |a| > 0 {
      SortedHeads(a, b);
      TailMultiset(a);
      TailMultiset(b);
      SortedUnique(a[1..], b[1..]);
      assert a == [a[0]] + a[1..] && b == [b[0]] + b[1..];
    } else {
      assert |multiset(b)| == 0;
    }
  }

  /** The order of visits does not depend on the order of the listing. */
  lemma {:induction false} SortIgnoresListingOrder(a: seq<string>, b: seq<string>)
    requires multiset(a) == multiset(b)
    ensures Sort(a) == Sort(b)
  {
    SortedUnique(Sort(a), Sort(b));
  }

  /** `b.jpg`, `a.jpg`, `c.jpg` are visited as `a.jpg`, `b.jpg`, `c.jpg`. */
  lemma {:induction false} SortExample()
    ensures Sort(["b.jpg", "a.jpg", "c.jpg"]) == ["a.jpg", "b.jpg", "c.jpg"]
  {
    var listing, sorted := ["b.jpg", "a.jpg", "c.jpg"], ["a.jpg", "b.jpg", "c.jpg"];
    assert Below(sorted[0], sorted[1]) && Below(sorted[1], sorted[2]);
    BelowTransitive(sorted[0], sorted[1], sorted[2]);
    assert Sorted(sorted);
    assert multiset(sorted) == multiset(listing);
    SortedUnique(Sort(listing), sorted);
  }
}

=== FILE: results.dfy ===
/** Optional values and results with an error, the two shapes the converter uses
    for `null` returns and for exceptions that end a run. */
module Results {

  /** A value that may be absent (`null` in the converter). */
  datatype Option<+T> = None | Some(value: T)

  /** The outcome of an operation that either produces a value or fails. */
  datatype Result<+R, +E> = Success(value: R) | Failure(error: E) {

    predicate IsFailure() {
      Failure?
    }

    function PropagateFailure<U>(): Result<U, E>
      requires Failure?
    {
      Failure(error)
    }

    function Extract(): R
      requires Success?
    {
      value
    }
  }
}

=== FILE: sanitize.dfy ===
/** The field sanitisers of `StringExtensions.cs`: `FixChars` for every cell
    of a contact row, `FixUrl` for the web address and `CheckPhone` for the
    phone number. */
module Sanitize {
  import opened Text
  import opened FileSystem

  /** `FixChars`: every comma becomes a space, then every Windows line break
      (CR LF) becomes one space, then every remaining line feed becomes a
      space, and the result is trimmed. The text it returns can stand on one
      line of the comma-free card template. */
  function FixChars(o: string): (r: string)
    ensures ',' !in r && '\n' !in r
    ensures Trimmed(r, IsWhiteSpace)
    ensures |r| <= |o|
  {
    var noCommas := Replace(o, ",", " ");
    var noBreaks := Replace(noCommas, NewLine, " ");
    var noFeeds := Replace(noBreaks, "\n", " ");
    Trim(noFeeds)
  }

  /** The replacements of `FixChars` find nothing in a string without commas
      and line feeds. */
  lemma {:induction false} FixCharsReplacementsIdle(y: string)
    requires ',' !in y && '\n' !in y
    ensures Replace(Replace(Replace(y, ",", " "), NewLine, " "), "\n", " ") == y
  {
    MissingCharNotContained(y, ",", ',');
    MissingCharNotContained(y, NewLine, '\n');
    MissingCharNotContained(y, "\n", '\n');
  }

  /** Sanitising a sanitised value changes nothing. */
  lemma {:induction false} FixCharsIdempotent(o: string)
    ensures FixChars(FixChars(o)) == FixChars(o)
  {
    var y := FixChars(o);
    FixCharsReplacementsIdle(y);
    TrimOfTrimmed(y, IsWhiteSpace);
  }

  /** A value of white space alone, with no comma or line feed, sanitises to
      the empty string. */
  lemma {:induction false} FixCharsOfWhiteSpace(s: string)
    requires ',' !in s && '\n' !in s
    requires AllIn(s, 0, |s|, IsWhiteSpace)
    ensures FixChars(s) == ""
  {
    FixCharsReplacementsIdle(s);
    TrimAll(s, IsWhiteSpace);
  }

  /** A Windows line break between two clean words becomes exactly one space:
      the CR LF replacement runs before the line-feed one, so the pair is never
      split into two spaces. */
  lemma {:induction false} FixCharsJoinsLineBreak(a: string, b: string)
    requires ',' !in a && '\r' !in a && '\n' !in a
    requires ',' !in b && '\r' !in b && '\n' !in b
    requires |a| > 0 && |b| > 0 && !IsWhiteSpace(a[0]) && !IsWhiteSpace(b[|b| - 1])
    ensures FixChars(a + "\r\n" + b) == a + " " + b
  {
    var s := a + "\r\n" + b;
    MissingCharNotContained(s, ",", ',');
    LineBreakBecomesSpace(a, b);
    var joined := a + " " + b;
    assert '\n' !in joined;
    MissingCharNotContained(joined, "\n", '\n');
    assert joined[0] == a[0] && joined[|joined| - 1] == b[|b| - 1];
    TrimOfTrimmed(joined, IsWhiteSpace);
  }

  /** The CR LF pass over `a + CR LF + b`, with no carriage return in `a` or
      `b`, leaves `a + " " + b`. */
  lemma {:induction false} LineBreakBecomesSpace(a: string, b: string)
    requires '\r' !in a && '\r' !in b
    ensures Replace(a + NewLine + b, NewLine, " ") == a + " " + b
  {
    var s := a + NewLine + b;
    forall j | 0 <= j < |a|
      ensures !OccursAt(s, NewLine, j)
    {
      assert s[j..j + 2][0] == s[j] == a[j];
    }
    ReplaceAround(a, NewLine, b, " ");
    MissingCharNotContained(b, NewLine, '\r');
  }

  /** A lone carriage return is neither a comma, a CR LF pair nor a line
      feed, so `FixChars` keeps it. */
  lemma {:induction false} FixCharsKeepsLoneCarriageReturn()
    ensures FixChars("a\rb") == "a\rb"
  {
    FixCharsReplacementsIdle("a\rb");
    TrimOfTrimmed("a\rb", IsWhiteSpace);
  }

  /** The URL with one trailing `/` removed, as `FixUrl` does first. */
  function DropTrailingSlash(s: string): (r: string)
    ensures EndsWith(s, "/") ==> r + "/" == s
    ensures !EndsWith(s, "/") ==> r == s
  {
    if EndsWith(s, "/") then s[..|s| - 1] else s
  }

  /** `FixUrl`: drops one trailing `/`, then deletes every occurrence of
      `http://` and after that every occurrence of `https://`. A value with
      no `:` can hold no scheme, so it only loses its trailing `/`. */
  function FixUrl(s: string): (r: string)
    ensures |r| <= |s|
    ensures forall c | c in r :: c in s
    ensures ':' !in s && EndsWith(s, "/") ==> r + "/" == s
    ensures ':' !in s && !EndsWith(s, "/") ==> r == s
  {
    var t := DropTrailingSlash(s);
    assert ':' !in s ==> ':' !in t by {
      assert forall k | 0 <= k < |t| :: t[k] == s[k];
    }
    assert ':' !in t ==> !Contains(t, "http://") && !Contains(t, "https://") by {
      if ':' !in t {
        MissingCharNotContained(t, "http://", ':');
        MissingCharNotContained(t, "https://", ':');
      }
    }
    Replace(Replace(t, "http://", ""), "https://", "")
  }

  /** In `u + pat + v`, where the only `:` is the single one of `pat`, the
      first occurrence of `pat` is the one right after `u`. */
  lemma {:induction false} OnlyOccurrence(u: string, pat: string, v: string, m: nat)
    requires m < |pat| && pat[m] == ':'
    requires forall k | 0 <= k < |pat| && k != m :: pat[k] != ':'
    requires ':' !in u && ':' !in v
    ensures OccursAt(u + pat + v, pat, |u|)
    ensures forall j | 0 <= j < |u| :: !OccursAt(u + pat + v, pat, j)
  {
    var s := u + pat + v;
    assert s[|u|..|u| + |pat|] == pat;
    forall j | 0 <= j < |u|
      ensures !OccursAt(s, pat, j)
    {
      if j + |pat| <= |s| {
        if j + m < |u| {
          assert s[j + m] == u[j + m];
        } else {
          assert s[j + m] == pat[j + m - |u|];
        }
        assert s[j..j + |pat|][m] == s[j + m];
      }
    }
  }

  /** Deleting the one occurrence of a scheme from `u + pat + v`, where no
      other `:` occurs, leaves `u + v`. */
  lemma {:induction false} DeleteOnlyOccurrence(u: string, pat: string, v: string, m: nat)
    requires m < |pat| && pat[m] == ':'
    requires forall k | 0 <= k < |pat| && k != m :: pat[k] != ':'
    requires ':' !in u && ':' !in v
    ensures Replace(u + pat + v, pat, "") == u + v
  {
    OnlyOccurrence(u, pat, v, m);
    ReplaceAround(u, pat, v, "");
    MissingCharNotContained(v, pat, ':');
  }

  /** `http://` does not occur in a string whose only `:` follows `https`. */
  lemma {:induction false} NoHttpInHttps(u: string, v: string)
    requires ':' !in u && ':' !in v
    ensures !Contains(u + "https://" + v, "http://")
  {
    var s := u + "https://" + v;
    forall j | 0 <= j <= |s| - 7
      ensures !OccursAt(s, "http://", j)
    {
      assert s[j..j + 7][0] == s[j] && s[j..j + 7][4] == s[j + 4];
      if j + 4 < |u| {
        assert s[j + 4] == u[j + 4];
      } else if j + 4 < |u| + 8 {
        assert s[j + 4] == "https://"[j + 4 - |u|];
        assert j + 4 == |u| + 5 ==> s[j] == 't';
      } else {
        assert s[j + 4] == v[j + 4 - |u| - 8];
      }
    }
  }

  /** `FixUrl` deletes `http://` wherever it stands, not only at the start:
      `x http://y` becomes `x y`. */
  lemma {:induction false} FixUrlDeletesHttpAnywhere(u: string, v: string)
    requires ':' !in u && ':' !in v
    requires |v| > 0 && v[|v| - 1] != '/'
    ensures FixUrl(u + "http://" + v) == u + v
  {
    var s := u + "http://" + v;
    assert s[|s| - 1] == v[|v| - 1];
    DeleteOnlyOccurrence(u, "http://", v, 4);
    MissingCharNotContained(u + v, "https://", ':');
  }

  /** `FixUrl` deletes `https://` wherever it stands and, before that, one
      trailing `/`: `https://example.com/` becomes `example.com`. */
  lemma {:induction false} FixUrlDeletesHttpsAnywhere(u: string, v: string)
    requires ':' !in u && ':' !in v
    ensures FixUrl(u + "https://" + v + "/") == u + v
  {
    var s := u + "https://" + v + "/";
    assert DropTrailingSlash(s) == u + "https://" + v;
    NoHttpInHttps(u, v);
    DeleteOnlyOccurrence(u, "https://", v, 5);
  }

  /** `FixUrl` removes one trailing `/` only: `a//` becomes `a/`. */
  lemma {:induction false} FixUrlDropsOneSlash()
    ensures FixUrl("a//") == "a/"
  {
    assert DropTrailingSlash("a//") == "a/";
  }

  /** `x http://y` becomes `x y`. */
  lemma {:induction false} FixUrlHttpExample()
    ensures FixUrl("x http://y") == "x y"
  {
    var u, v := "x ", "y";
    assert u + "http://" + v == "x http://y";
    FixUrlDeletesHttpAnywhere(u, v);
  }

  /** `https://example.com/` becomes `example.com`. */
  lemma {:induction false} FixUrlHttpsExample()
    ensures FixUrl("https://example.com/") == "example.com"
  {
    var u, v := "", "example.com";
    assert u + "https://" + v + "/" == "https://example.com/";
    FixUrlDeletesHttpsAnywhere(u, v);
  }

  /** The trailing `/` goes before schemes are looked for, so a bare
      `http://` loses its last slash and no longer matches: it becomes `http:/`. */
  lemma {:induction false} FixUrlSlashBeforeScheme()
    ensures FixUrl("http://") == "http:/"
  {
    var t := "http:/";
    assert DropTrailingSlash("http://") == t;
    assert !Contains(t, "http://");
    MissingCharNotContained(t, "https://", 's');
  }

  /** The `http://` pass over `hthttp://tp://x` deletes only the occurrence
      at index 2. */
  lemma {:induction false} HttpPassOnce()
    ensures Replace("hthttp://tp://x", "http://", "") == "http://x"
  {
    var u, v := "ht", "tp://x";
    assert u + "http://" + v == "hthttp://tp://x";
    assert u + v == "http://x";
    DeleteSecondHttp(u, v);
  }

  /** Behind a two-character prefix that starts no `http://`, the first
      `http://` is the one deleted; a tail without `h` has no other. */
  lemma {:induction false} DeleteSecondHttp(u: string, v: string)
    requires |u| == 2 && u[1] != 'h' && 'h' !in v
    ensures Replace(u + "http://" + v, "http://", "") == u + v
  {
    var s := u + "http://" + v;
    assert !OccursAt(s, "http://", 0) by {
      assert s[0..7][2] == 'h';
    }
    assert !OccursAt(s, "http://", 1) by {
      assert s[1..8][0] == u[1];
    }
    ReplaceAround(u, "http://", v, "");
    MissingCharNotContained(v, "http://", 'h');
  }

  /** Each deletion is one left-to-right pass whose output is not scanned
      again, so the result can still hold a scheme: deleting the `http://` in
      the middle of `hthttp://tp://x` brings together a new one. */
  lemma {:induction false} FixUrlDoesNotRescan()
    ensures FixUrl("hthttp://tp://x") == "http://x"
  {
    var s, w := "hthttp://tp://x", "http://x";
    assert DropTrailingSlash(s) == s by {
      assert s[|s| - 1] == 'x';
    }
    HttpPassOnce();
    NoHttpsIn();
    FixUrlPasses(s, s, w, w);
  }

  /** `FixUrl` as its three passes, one after the other. */
  lemma {:induction false} FixUrlPasses(s: string, t: string, m: string, r: string)
    requires DropTrailingSlash(s) == t
    requires Replace(t, "http://", "") == m && Replace(m, "https://", "") == r
    ensures FixUrl(s) == r
  {
  }

  lemma {:induction false} NoHttpsIn()
    ensures Replace("http://x", "https://", "") == "http://x"
  {
    MissingCharNotContained("http://x", "https://", 's');
  }

  /** `CheckPhone`: the number with a leading `+`, added only when missing. */
  function CheckPhone(s: string): (r: string)
    ensures |r| > 0 && r[0] == '+'
    ensures forall c | c in r :: c == '+' || c in s
    ensures |r| >= |s| && r[|r| - |s|..] == s
    ensures StartsWith(s, "+") <==> r == s
    ensures !StartsWith(s, "+") ==> |r| == |s| + 1
  {
    if StartsWith(s, "+") then s else "+" + s
  }

  /** Checking a checked phone number changes nothing; the empty number
      becomes a lone `+`. */
  lemma {:induction false} CheckPhoneIdempotent(s: string)
    ensures CheckPhone(CheckPhone(s)) == CheckPhone(s)
    ensures CheckPhone("") == "+"
  {
    assert StartsWith(CheckPhone(s), "+");
  }
}

=== FILE: settings.dfy ===
/** The one tunable of the converter: the pixel height at which scanned
    images are decoded, read from the `QrCodeImagePixelHeight` application
    setting with `int.TryParse` and falling back to 6000. */
module Settings {
  import opened Results
  import opened Text

  /** `_qrCodeImagePixelHeightDefault`. */
  const DefaultPixelHeight: int := 6000

  const Int32Min: int := -0x8000_0000
  const Int32Max: int := 0x7FFF_FFFF

  /** The white space `int.TryParse` skips before and after a number. */
  predicate IsNumberWhite(c: char)
  {
    c == ' ' || ('\t' <= c <= '\r')
  }

  predicate IsDigit(c: char)
  {
    '0' <= c <= '9'
  }

  /** The value of a string of decimal digits, most significant first. */
  function DigitsValue(s: string): (n: nat)
    requires AllIn(s, 0, |s|, IsDigit)
    decreases |s|
  {
    if |s| == 0 then 0
    else 10 * DigitsValue(s[..|s| - 1]) + (s[|s| - 1] as int - '0' as int)
  }

  /** The number a trimmed string spells: an optional `+` or `-` followed
      by at least one decimal digit, when the value fits in 32 bits. */
  function ParseSigned(t: string): (r: Option<int>)
    ensures r.Some? ==> Int32Min <= r.value <= Int32Max
  {
    var signed := |t| > 0 && (t[0] == '-' || t[0] == '+');
    var digits := if signed then t[1..] else t;
    if |digits| == 0 || !AllIn(digits, 0, |digits|, IsDigit) then None
    else
      var magnitude := DigitsValue(digits);
      var n: int := if signed && t[0] == '-' then -(magnitude as int) else magnitude;
      if Int32Min <= n <= Int32Max then Some(n) else None
  }

  /** `int.TryParse` with the default integer style: optional white space,
      an optional `+` or `-`, at least one decimal digit, optional white
      space, and a value that fits in 32 bits. A missing setting fails. */
  function ParseInt32(setting: Option<string>): (r: Option<int>)
    ensures r.Some? ==> Int32Min <= r.value <= Int32Max
  {
    match setting
    case None => None
    case Some(text) => ParseSigned(TrimWith(text, IsNumberWhite))
  }

  /** The decode pixel height: the setting whenever `int.TryParse` accepts it,
      otherwise the default. */
  function PixelHeight(setting: Option<string>): int
  {
    match ParseInt32(setting)
    case Some(n) => n
    case None => DefaultPixelHeight
  }

  function DigitChar(d: nat): char
    requires d < 10
  {
    ('0' as int + d) as char
  }

  /** The decimal digits of `n`, most significant first, without leading zeros. */
  function NatDigits(n: nat): (s: string)
    ensures |s| >= 1 && AllIn(s, 0, |s|, IsDigit)
    decreases n
  {
    if n < 10 then [DigitChar(n)] else NatDigits(n / 10) + [DigitChar(n % 10)]
  }

  /** `n.ToString()`: the decimal form of an integer, `-` first when negative. */
  function Decimal(n: int): string
  {
    if n < 0 then "-" + NatDigits(-n) else NatDigits(n)
  }

  /** Reading back the digits of a number gives the number. */
  lemma {:induction false} DigitsRoundTrip(n: nat)
    ensures DigitsValue(NatDigits(n)) == n
    decreases n
  {
    if n >= 10 {
      var s := NatDigits(n);
      DigitsRoundTrip(n / 10);
      assert s[..|s| - 1] == NatDigits(n / 10);
    }
  }

  /** The decimal form of a number is already trimmed of white space. */
  lemma {:induction false} DecimalTrimmed(n: int)
    ensures TrimWith(Decimal(n), IsNumberWhite) == Decimal(n)
  {
    var s := Decimal(n);
    var digits := NatDigits(if n < 0 then -n else n);
    assert s[|s| - 1] == digits[|digits| - 1];
    TrimOfTrimmed(s, IsNumberWhite);
  }

  /** The signed-number reading of the decimal form of `n` is `n` whenever
      `n` fits in 32 bits, and nothing otherwise. */
  lemma {:induction false} ParseSignedDecimal(n: int)
    ensures ParseSigned(Decimal(n)) == if Int32Min <= n <= Int32Max then Some(n) else None
  {
    var s := Decimal(n);
    if n < 0 {
      DigitsRoundTrip(-n);
      assert s[1..] == NatDigits(-n);
    } else {
      DigitsRoundTrip(n);
      assert IsDigit(s[0]);
    }
  }

  /** `int.TryParse` accepts the decimal form of every 32-bit integer and
      yields that integer back. */
  lemma {:induction false} DecimalRoundTrip(n: int)
    requires Int32Min <= n <= Int32Max
    ensures ParseInt32(Some(Decimal(n))) == Some(n)
  {
    DecimalTrimmed(n);
    ParseSignedDecimal(n);
  }

  /** The pixel height is whatever number the setting holds, zero and negative
      numbers included: only an unreadable setting falls back to 6000. */
  lemma {:induction false} PixelHeightKeepsAnyInt32(n: int)
    requires Int32Min <= n <= Int32Max
    ensures PixelHeight(Some(Decimal(n))) == n
    ensures PixelHeight(Some(Decimal(0))) == 0
    ensures PixelHeight(Some(Decimal(-1))) == -1
  {
    DecimalRoundTrip(n);
    DecimalRoundTrip(0);
    DecimalRoundTrip(-1);
  }

  /** A setting without a single digit is never a number. */
  lemma {:induction false} NoDigitNoNumber(text: string)
    requires forall k | 0 <= k < |text| :: !IsDigit(text[k])
    ensures ParseInt32(Some(text)) == None
  {
    var t := TrimWith(text, IsNumberWhite);
    var digits := if |t| > 0 && (t[0] == '-' || t[0] == '+') then t[1..] else t;
    if |digits| > 0 {
      assert digits[0] in t;
      assert digits[0] in text;
      assert !IsDigit(digits[0]);
    }
  }

  /** A number too large for 32 bits, a missing setting and a setting with no
      digit all fall back to 6000. */
  lemma {:induction false} PixelHeightFallsBack(n: int, text: string)
    requires n > Int32Max
    requires forall k | 0 <= k < |text| :: !IsDigit(text[k])
    ensures PixelHeight(Some(Decimal(n))) == DefaultPixelHeight
    ensures PixelHeight(None) == DefaultPixelHeight
    ensures PixelHeight(Some(text)) == DefaultPixelHeight
  {
    DecimalTrimmed(n);
    ParseSignedDecimal(n);
    NoDigitNoNumber(text);
  }
}

=== FILE: text.dfy ===
/** The ordinal string operations of the .NET base library that the converter
    relies on: `String.Replace`, `String.Split`, `String.Join`, `String.Trim`,
    `String.Contains`, `String.ToLower` and `Enumerable.Reverse`, over strings
    as sequences of characters. */
module Text {
  import opened Results

  /** `Char.IsWhiteSpace`: the Unicode space, line and paragraph separators
      together with the control characters U+0009..U+000D and U+0085. */
  predicate IsWhiteSpace(c: char)
  {
    || c == ' '
    || ('\t' <= c <= '\r')
    || c == '\U{85}'
    || c == '\U{A0}'
    || c == '\U{1680}'
    || ('\U{2000}' <= c <= '\U{200A}')
    || c == '\U{2028}'
    || c == '\U{2029}'
    || c == '\U{202F}'
    || c == '\U{205F}'
    || c == '\U{3000}'
  }

  /** Every character of `s` between indices `lo` (inclusive) and `hi`
      (exclusive) satisfies `p`. */
  predicate AllIn(s: string, lo: int, hi: int, p: char -> bool)
    requires 0 <= lo <= hi <= |s|
  {
    forall i | lo <= i < hi :: p(s[i])
  }

  // ---------------------------------------------------------------------------
  // Trimming

  /** Drops the maximal leading run of `p`-characters. */
  function TrimStartWith(s: string, p: char -> bool): (r: string)
    ensures |r| <= |s| && r == s[|s| - |r|..]
    ensures AllIn(s, 0, |s| - |r|, p)
    ensures r == [] || !p(r[0])
    decreases |s|
  {
    if |s| > 0 && p(s[0]) then TrimStartWith(s[1..], p) else s
  }

  /** Drops the maximal trailing run of `p`-characters. */
  function TrimEndWith(s: string, p: char -> bool): (r: string)
    ensures |r| <= |s| && r == s[..|r|]
    ensures AllIn(s, |r|, |s|, p)
    ensures r == [] || !p(r[|r| - 1])
    decreases |s|
  {
    if |s| > 0 && p(s[|s| - 1]) then TrimEndWith(s[..|s| - 1], p) else s
  }

  /** Neither end of `r` is a `p`-character. */
  predicate Trimmed(r: string, p: char -> bool)
  {
    r == [] || (!p(r[0]) && !p(r[|r| - 1]))
  }

  /** `r` sits in `s` at index `i` with only `p`-characters around it. */
  predicate TrimmedAt(s: string, r: string, i: int, p: char -> bool)
  {
    0 <= i <= |s| - |r| && s[i..i + |r|] == r && AllIn(s, 0, i, p) && AllIn(s, i + |r|, |s|, p)
  }

  /** Reference meaning of trimming: `r` is a contiguous piece of `s`, everything
      cut off on either side is a `p`-character, and `r` itself is trimmed. */
  ghost predicate IsTrimOf(s: string, r: string, p: char -> bool)
  {
    Trimmed(r, p) && exists i :: TrimmedAt(s, r, i, p)
  }

  /** The two halves of trimming leave a piece of `s` surrounded by `p`-characters. */
  lemma {:induction false} TrimHalves(s: string, t: string, r: string, p: char -> bool)
    requires |t| <= |s| && t == s[|s| - |t|..] && AllIn(s, 0, |s| - |t|, p)
    requires |r| <= |t| && r == t[..|r|] && AllIn(t, |r|, |t|, p)
    ensures TrimmedAt(s, r, |s| - |t|, p)
  {
    var i := |s| - |t|;
    assert t == s[i..];
    assert s[i..i + |r|] == r;
    forall k | i + |r| <= k < |s|
      ensures p(s[k])
    {
      assert s[k] == t[k - i];
    }
  }

  /** Removes the leading and trailing `p`-characters of `s`. */
  function TrimWith(s: string, p: char -> bool): (r: string)
    ensures IsTrimOf(s, r, p)
    ensures forall c | c in r :: c in s
  {
    var t := TrimStartWith(s, p);
    var r := TrimEndWith(t, p);
    TrimHalves(s, t, r, p);
    r
  }

  /** `String.Trim()`. */
  function Trim(s: string): (r: string)
    ensures IsTrimOf(s, r, IsWhiteSpace)
    ensures forall c | c in r :: c in s
  {
    TrimWith(s, IsWhiteSpace)
  }

  /** There is only one way to trim a string. */
  lemma {:induction false} TrimUnique(s: string, r1: string, r2: string, p: char -> bool)
    requires IsTrimOf(s, r1, p) && IsTrimOf(s, r2, p)
    ensures r1 == r2
  {
    var i1 :| TrimmedAt(s, r1, i1, p);
    var i2 :| TrimmedAt(s, r2, i2, p);
    assert r1 != [] ==> r1[0] == s[i1] && r1[|r1| - 1] == s[i1 + |r1| - 1];
    assert r2 != [] ==> r2[0] == s[i2] && r2[|r2| - 1] == s[i2 + |r2| - 1];
    assert (r1 == []) == (r2 == []);
    assert r1 != [] ==> i1 == i2 && i1 + |r1| == i2 + |r2|;
  }

  /** A string whose ends are not `p`-characters is its own trim. */
  lemma {:induction false} TrimOfTrimmed(s: string, p: char -> bool)
    requires Trimmed(s, p)
    ensures TrimWith(s, p) == s
  {
    assert TrimmedAt(s, s, 0, p);
    TrimUnique(s, s, TrimWith(s, p), p);
  }

  /** A string of `p`-characters only trims to nothing. */
  lemma {:induction false} TrimAll(s: string, p: char -> bool)
    requires AllIn(s, 0, |s|, p)
    ensures TrimWith(s, p) == ""
  {
    assert TrimmedAt(s, "", 0, p);
    TrimUnique(s, "", TrimWith(s, p), p);
  }

  /** Trimming twice is trimming once. */
  lemma {:induction false} TrimIdempotent(s: string, p: char -> bool)
    ensures TrimWith(TrimWith(s, p), p) == TrimWith(s, p)
  {
    TrimOfTrimmed(TrimWith(s, p), p);
  }

  // ---------------------------------------------------------------------------
  // Searching

  /** `pat` occurs in `s` starting at index `i`. */
  predicate OccursAt(s: string, pat: string, i: int)
  {
    0 <= i && i + |pat| <= |s| && s[i..i + |pat|] == pat
  }

  /** `String.Contains(string)`, ordinal. */
  predicate Contains(s: string, pat: string)
  {
    exists i | 0 <= i <= |s| - |pat| :: OccursAt(s, pat, i)
  }

  /** `s.StartsWith(pat)`, ordinal. */
  predicate StartsWith(s: string, pat: string)
  {
    |pat| <= |s| && s[..|pat|] == pat
  }

  /** `s.EndsWith(pat)`, ordinal. */
  predicate EndsWith(s: string, pat: string)
  {
    |pat| <= |s| && s[|s| - |pat|..] == pat
  }

  lemma {:induction false} OccursAtTail(s: string, pat: string, j: int)
    requires |s| > 0 && j >= 0
    ensures OccursAt(s[1..], pat, j) <==> OccursAt(s, pat, j + 1)
  {
    if 0 <= j && j + |pat| <= |s| - 1 {
      assert s[1..][j..j + |pat|] == s[j + 1..j + 1 + |pat|];
    }
  }

  /** `String.IndexOf(string)`, ordinal: the first occurrence of `pat`. */
  function IndexOf(s: string, pat: string): (r: Option<nat>)
    requires |pat| > 0
    ensures r.Some? ==> OccursAt(s, pat, r.value) && forall j | 0 <= j < r.value :: !OccursAt(s, pat, j)
    ensures r.None? <==> !Contains(s, pat)
    decreases |s|
  {
    if |s| < |pat| then None
    else if s[..|pat|] == pat then Some(0)
    else
      var rest := IndexOf(s[1..], pat);
      assert !OccursAt(s, pat, 0);
      assert forall j | j >= 0 :: OccursAt(s[1..], pat, j) <==> OccursAt(s, pat, j + 1) by {
        forall j | j >= 0 { OccursAtTail(s, pat, j); }
      }
      assert Contains(s, pat) ==> Contains(s[1..], pat) by {
        if Contains(s, pat) {
          var i :| 0 <= i <= |s| - |pat| && OccursAt(s, pat, i);
          assert OccursAt(s[1..], pat, i - 1);
        }
      }
      match rest
      case None => None
      case Some(k) =>
        assert forall j | 1 <= j < k + 1 :: !OccursAt(s, pat, j) by {
          forall j | 1 <= j < k + 1
            ensures !OccursAt(s, pat, j)
          {
            OccursAtTail(s, pat, j - 1);
          }
        }
        Some(k + 1)
  }

  /** An occurrence with none before it is the one `IndexOf` finds. */
  lemma {:induction false} IndexOfFirst(s: string, pat: string, i: nat)
    requires |pat| > 0
    requires OccursAt(s, pat, i)
    requires forall j | 0 <= j < i :: !OccursAt(s, pat, j)
    ensures IndexOf(s, pat) == Some(i)
  {
    assert Contains(s, pat);
  }

  /** A single-character pattern occurs exactly where the character does. */
  lemma {:induction false} ContainsChar(s: string, c: char)
    ensures Contains(s, [c]) <==> c in s
  {
    if c in s {
      var i :| 0 <= i < |s| && s[i] == c;
      assert OccursAt(s, [c], i);
    }
    if Contains(s, [c]) {
      var i :| 0 <= i <= |s| - 1 && OccursAt(s, [c], i);
      assert s[i..i + 1][0] == c;
    }
  }

  /** A string lacking some character of `pat` does not contain `pat`. */
  lemma {:induction false} MissingCharNotContained(s: string, pat: string, c: char)
    requires c in pat && c !in s
    ensures !Contains(s, pat)
  {
    var k :| 0 <= k < |pat| && pat[k] == c;
    forall i | 0 <= i <= |s| - |pat|
      ensures !OccursAt(s, pat, i)
    {
      assert s[i..i + |pat|][k] == s[i + k];
    }
  }

  // ---------------------------------------------------------------------------
  // Replacing, splitting and joining

  /** `String.Replace(pat, rep)`, ordinal: scans `s` from left to right and
      replaces every non-overlapping occurrence of `pat` by `rep`; the text
      produced by a replacement is never scanned again. */
  function Replace(s: string, pat: string, rep: string): (r: string)
    requires |pat| > 0
    ensures |rep| <= |pat| ==> |r| <= |s|
    ensures forall c | c in r :: c in s || c in rep
    ensures |pat| == 1 && pat[0] !in rep ==> pat[0] !in r
    ensures !Contains(s, pat) ==> r == s
    decreases |s|
  {
    if |s| < |pat| then
      assert !Contains(s, pat);
      s
    else if s[..|pat|] == pat then
      assert OccursAt(s, pat, 0);
      assert forall c | c in s[|pat|..] :: c in s;
      rep + Replace(s[|pat|..], pat, rep)
    else
      var rest := Replace(s[1..], pat, rep);
      assert !Contains(s, pat) ==> !Contains(s[1..], pat) by {
        if Contains(s[1..], pat) {
          var i :| 0 <= i <= |s| - 1 - |pat| && OccursAt(s[1..], pat, i);
          OccursAtTail(s, pat, i);
        }
      }
      assert |pat| == 1 ==> s[0] != pat[0] by {
        if |pat| == 1 { assert s[..1] == [s[0]]; }
      }
      assert s == [s[0]] + s[1..];
      [s[0]] + rest
  }

  /** Where `pat` starts `s`, `Replace` puts `rep` in its place first. */
  lemma {:induction false} ReplaceAtStart(s: string, pat: string, rep: string)
    requires |pat| > 0 && OccursAt(s, pat, 0)
    ensures Replace(s, pat, rep) == rep + Replace(s[|pat|..], pat, rep)
  {
    assert s[..|pat|] == pat;
  }

  /** Where `pat` does not start `s`, `Replace` copies the first character. */
  lemma {:induction false} ReplaceSkip(s: string, pat: string, rep: string)
    requires |pat| > 0 && |pat| <= |s| && !OccursAt(s, pat, 0)
    ensures Replace(s, pat, rep) == [s[0]] + Replace(s[1..], pat, rep)
  {
  }

  /** Dropping a first character that starts no occurrence keeps the first occurrence first. */
  lemma {:induction false} FirstOccurrenceOfTail(s: string, pat: string, i: nat)
    requires |pat| > 0 && i > 0
    requires OccursAt(s, pat, i)
    requires forall j | 0 <= j < i :: !OccursAt(s, pat, j)
    ensures OccursAt(s[1..], pat, i - 1)
    ensures forall j | 0 <= j < i - 1 :: !OccursAt(s[1..], pat, j)
  {
    forall j | 0 <= j < i - 1
      ensures !OccursAt(s[1..], pat, j)
    {
      OccursAtTail(s, pat, j);
    }
    OccursAtTail(s, pat, i - 1);
  }

  /** One step of `ReplaceAtFirst`: the claim for `s[1..]` gives it for `s`. */
  lemma {:induction false} ReplaceAtFirstStep(s: string, u: string, pat: string, rep: string, i: nat, done: string)
    requires 0 < |pat| <= |s| && 0 < i <= |s| && !OccursAt(s, pat, 0)
    requires u == s[1..]
    requires Replace(u, pat, rep) == u[..i - 1] + rep + done
    ensures Replace(s, pat, rep) == s[..i] + rep + done
  {
    ReplaceSkip(s, pat, rep);
    ConsPrefix(s, u, i, rep, done);
  }

  /** Putting back the first character of `s` in front of a split of its tail. */
  lemma {:induction false} ConsPrefix(s: string, u: string, i: nat, rep: string, done: string)
    requires 0 < i <= |s| && u == s[1..]
    ensures [s[0]] + (u[..i - 1] + rep + done) == s[..i] + rep + done
  {
    var front := u[..i - 1];
    assert [s[0]] + front == s[..i];
    assert [s[0]] + (front + rep + done) == ([s[0]] + front) + rep + done;
  }

  /** Up to its first occurrence of `pat`, `Replace` copies `s` unchanged. */
  lemma {:induction false} ReplaceAtFirst(s: string, pat: string, rep: string, i: nat)
    requires |pat| > 0
    requires OccursAt(s, pat, i)
    requires forall j | 0 <= j < i :: !OccursAt(s, pat, j)
    ensures Replace(s, pat, rep) == s[..i] + rep + Replace(s[i + |pat|..], pat, rep)
    decreases i
  {
    if i == 0 {
      ReplaceAtStart(s, pat, rep);
      assert s[..i] + rep == rep;
    } else {
      var u, k := s[1..], i - 1;
      var t := s[i + |pat|..];
      assert u[k + |pat|..] == t;
      FirstOccurrenceOfTail(s, pat, i);
      ReplaceAtFirst(u, pat, rep, k);
      ReplaceAtFirstStep(s, u, pat, rep, i, Replace(t, pat, rep));
    }
  }

  /** When `pat` first occurs right after `u` in `u + pat + v`, `Replace`
      keeps `u`, puts `rep` for that occurrence and carries on over `v`. */
  lemma {:induction false} ReplaceAround(u: string, pat: string, v: string, rep: string)
    requires |pat| > 0
    requires forall j | 0 <= j < |u| :: !OccursAt(u + pat + v, pat, j)
    ensures Replace(u + pat + v, pat, rep) == u + rep + Replace(v, pat, rep)
  {
    var s := u + pat + v;
    assert OccursAt(s, pat, |u|) by {
      assert s[|u|..|u| + |pat|] == pat;
    }
    ReplaceAtFirst(s, pat, rep, |u|);
    assert s[..|u|] == u;
    assert s[|u| + |pat|..] == v;
  }

  /** `String.Split(sep)` with no options: the pieces between successive
      left-to-right non-overlapping occurrences of `sep`, empty pieces kept. */
  function Split(s: string, sep: string): (parts: seq<string>)
    requires |sep| > 0
    ensures |parts| >= 1
    ensures forall k | 0 <= k < |parts| :: !Contains(parts[k], sep)
    decreases |s|
  {
    match IndexOf(s, sep)
    case None => [s]
    case Some(i) =>
      var head := s[..i];
      assert !Contains(head, sep) by {
        if Contains(head, sep) {
          var j :| 0 <= j <= |head| - |sep| && OccursAt(head, sep, j);
          assert head[j..j + |sep|] == s[j..j + |sep|];
          assert OccursAt(s, sep, j);
        }
      }
      [head] + Split(s[i + |sep|..], sep)
  }

  /** `String.Join(sep, parts)`. */
  function Join(sep: string, parts: seq<string>): (r: string)
    ensures forall c | c in r :: c in sep || exists k | 0 <= k < |parts| :: c in parts[k]
  {
    if |parts| == 0 then ""
    else if |parts| == 1 then parts[0]
    else
      var rest := Join(sep, parts[1..]);
      assert forall k | 0 <= k < |parts| - 1 :: parts[1..][k] == parts[k + 1];
      parts[0] + sep + rest
  }

  /** The last piece of a join of at least two pieces follows the last
      separator. */
  lemma {:induction false} JoinLast(sep: string, parts: seq<string>)
    requires |parts| >= 2
    ensures Join(sep, parts) == Join(sep, parts[..|parts| - 1]) + sep + parts[|parts| - 1]
    decreases |parts|
  {
    var n := |parts|;
    if n > 2 {
      JoinLast(sep, parts[1..]);
      assert parts[1..][..n - 2] == parts[..n - 1][1..];
    } else {
      assert parts[..1] == [parts[0]];
    }
  }

  /** `Replace` is the same as splitting on the pattern and joining with the
      replacement: its scan finds exactly the occurrences `Split` cuts at. */
  lemma {:induction false} ReplaceIsJoinOfSplit(s: string, pat: string, rep: string)
    requires |pat| > 0
    ensures Replace(s, pat, rep) == Join(rep, Split(s, pat))
    decreases |s|
  {
    match IndexOf(s, pat)
    case None =>
    case Some(i) =>
      ReplaceAtFirst(s, pat, rep, i);
      ReplaceIsJoinOfSplit(s[i + |pat|..], pat, rep);
      var tail := Split(s[i + |pat|..], pat);
      assert Split(s, pat) == [s[..i]] + tail;
      assert ([s[..i]] + tail)[1..] == tail;
  }

  /** Joining the pieces of a split with the separator restores the string. */
  lemma {:induction false} SplitJoin(s: string, sep: string)
    requires |sep| > 0
    ensures Join(sep, Split(s, sep)) == s
    decreases |s|
  {
    match IndexOf(s, sep)
    case None =>
    case Some(i) =>
      SplitJoin(s[i + |sep|..], sep);
      var tail := Split(s[i + |sep|..], sep);
      assert ([s[..i]] + tail)[1..] == tail;
      assert s == s[..i] + sep + s[i + |sep|..] by {
        assert s[i..i + |sep|] == sep;
      }
  }

  /** No proper prefix of `sep` is also a suffix of it, so an occurrence of
      `sep` can never overlap another one. */
  predicate Unbordered(sep: string)
  {
    forall k | 0 < k < |sep| :: sep[..k] != sep[|sep| - k..]
  }

  /** In `head + sep + rest`, with `sep` absent from `head` and unbordered,
      the first occurrence of `sep` is the one right after `head`. */
  lemma {:induction false} SplitAfterHead(head: string, sep: string, rest: string)
    requires |sep| > 0 && Unbordered(sep) && !Contains(head, sep)
    ensures Split(head + sep + rest, sep) == [head] + Split(rest, sep)
  {
    var s := head + sep + rest;
    assert OccursAt(s, sep, |head|) by {
      assert s[|head|..|head| + |sep|] == sep;
    }
    forall j | 0 <= j < |head|
      ensures !OccursAt(s, sep, j)
    {
      if j + |sep| <= |head| {
        assert s[j..j + |sep|] == head[j..j + |sep|];
        assert !OccursAt(head, sep, j);
      } else if j + |sep| <= |s| {
        var k := j + |sep| - |head|;
        assert sep[..k] != sep[|sep| - k..];
        assert !(forall m | 0 <= m < k :: sep[..k][m] == sep[|sep| - k..][m]);
        var m :| 0 <= m < k && sep[m] != sep[|sep| - k + m];
        assert s[|head| + m] == sep[m];
        assert s[j..j + |sep|][|sep| - k + m] == s[|head| + m];
      }
    }
    IndexOfFirst(s, sep, |head|);
    assert s[..|head|] == head;
    assert s[|head| + |sep|..] == rest;
  }

  /** Splitting a join recovers the pieces when none of them contains the
      (unbordered) separator. */
  lemma {:induction false} JoinSplit(sep: string, parts: seq<string>)
    requires |sep| > 0 && Unbordered(sep) && |parts| >= 1
    requires forall k | 0 <= k < |parts| :: !Contains(parts[k], sep)
    ensures Split(Join(sep, parts), sep) == parts
    decreases |parts|
  {
    if |parts| == 1 {
      assert IndexOf(parts[0], sep).None?;
    } else {
      JoinSplit(sep, parts[1..]);
      SplitAfterHead(parts[0], sep, Join(sep, parts[1..]));
    }
  }

  // ---------------------------------------------------------------------------
  // Character and sequence maps

  /** ASCII lower-casing of one character. */
  function LowerChar(c: char): char
  {
    if 'A' <= c <= 'Z' then (c as int + 32) as char else c
  }

  /** `String.ToLower()` restricted to ASCII letters. */
  function ToLower(s: string): (r: string)
    ensures |r| == |s|
    ensures forall i | 0 <= i < |s| :: r[i] == LowerChar(s[i])
  {
    if |s| == 0 then "" else [LowerChar(s[0])] + ToLower(s[1..])
  }

  /** `Enumerable.Reverse`. */
  function Reverse<T>(s: seq<T>): (r: seq<T>)
    ensures |r| == |s|
    ensures forall i | 0 <= i < |s| :: r[i] == s[|s| - 1 - i]
  {
    if |s| == 0 then [] else Reverse(s[1..]) + [s[0]]
  }
}
